=== FILE: README.md ===
# Phone-as-Xbox-controller: a Dafny model of the input path

The system turns a phone browser into an Xbox controller. A touch page keeps a `User`
record: two stick positions clamped to [-1, 1], the held face and D-pad keys, four
digital flags (L1, R1, L2, R2) and a player number. About sixty times a second the page
sends a snapshot of that record over a WebSocket. It reconnects with a capped linear
backoff when the socket closes. On the PC, `VirtualController.update_state` turns each
snapshot into calls on a virtual gamepad. It presses and releases face and D-pad buttons
by set difference against the keys it held after the previous snapshot.

The project models three pieces:

- **the client record and its touch dispatch**: `user.dfy` and `touch.dfy`. A JavaScript
  `Set` keeps insertion order, so it is a duplicate-free `seq<string>`
  (`insertion_set.dfy`).
- **the reconnect and send-loop state machine**: `connection.dfy`. Timers are abstracted
  to the set of live send intervals and a count of pending reconnect timeouts. Browser
  events are a step function.
- **the receiver's diff**: `receiver.dfy`. The gamepad is abstracted to its held buttons,
  its trigger values and its stick values.

`wrappers.dfy` holds the `Option` type.

Geometry is outside the model. The touch handlers receive the stick position the
geometry computes (`TouchPoint.normX/normY`) as a parameter. The timer and socket
callbacks are `Connection.Event`s. Whether `new WebSocket` throws is a parameter of the
timer event.

Two behaviours of the code shape the model:

- **Zero radius.** With a zero radius `updateStick` divides 0 by 0 and gets NaN, so the
  stick geometry is left out.
- **Socket errors.** `onerror` only logs, so `SocketError` is a no-op step. Only `onclose`
  or a throwing constructor schedules a reconnect.

## Model

| member | source | states |
|---|---|---|
| XboxController.Clamp | static/xboxController.js:17-25 | `Math.max(-1, Math.min(1, v))` lies in [-1, 1]. It is `v` when `v` is already in range, 1 above the range and -1 below it. |
| XboxController.UpdatePosX | static/xboxController.js:17-20 | `"left"` stores the clamped x on the left stick; any other name stores it on the right stick. The other stick, the y axis and every other field are unchanged, and validity is kept. |
| XboxController.UpdatePosY | static/xboxController.js:22-25 | As `UpdatePosX`, but for the y axis. |
| XboxController.SetStickStoresClamped | static/xboxController.js:17-25 | Setting x then y on a stick leaves exactly (clamp x, clamp y) on that stick. |
| InsertionSet.Add | static/xboxController.js:28 | `Set.add` makes the key a member and keeps every other member. It appends only when the key is new, so earlier members keep their order and the collection stays duplicate-free. |
| InsertionSet.Delete | static/xboxController.js:28 | `Set.delete` removes the key, keeps every other member and keeps the collection duplicate-free. |
| InsertionSet.DeleteAbsent | static/xboxController.js:28 | Deleting a key that is not a member gives back the same sequence. |
| InsertionSet.DeleteAt | static/xboxController.js:28 | On a duplicate-free collection, deleting the i-th key removes exactly that position and keeps the rest in order. |
| InsertionSet.AddThenDelete | static/xboxController.js:28 | Adding a new key and then deleting it gives back the original sequence. |
| XboxController.UpdateGroup | static/xboxController.js:27-33 | The shared rule of both button mutators: after the call the key is a member iff the action was "pressed", and every other key keeps its membership. A duplicate-free group stays duplicate-free. |
| XboxController.UpdateFaceButtons | static/xboxController.js:27-29 | `"pressed"` makes the key held; any other action makes it not held. Every other key and every other field, including the D-pad group, is unchanged. |
| XboxController.UpdateDPadButtons | static/xboxController.js:31-33 | As `UpdateFaceButtons`, for the D-pad group. The face group is untouched. |
| XboxController.ReleaseAbsentIsNoOp | static/xboxController.js:27-33 | Releasing a key that is not held leaves the user unchanged, in either group. |
| XboxController.PressThenReleaseRestores | static/xboxController.js:27-33 | Pressing a key that was not held and then releasing it restores the user exactly, including the order of the other held keys. |
| XboxController.UpdateDigitalButtons | static/xboxController.js:35-42 | "L1", "R1", "L2" and "R2" each set exactly their own flag. Any other name changes nothing. |
| XboxController.NewUser | static/xboxController.js:2-15 | The constructor bumps the class counter and takes the new value as its player ID. It gives a neutral user: sticks centred, nothing held, flags false. |
| XboxController.CreateUsersNumbering | static/xboxController.js:2-15 | Creating k users from counter n numbers them n+1, …, n+k in creation order. The IDs strictly increase and the counter ends at n+k. |
| XboxController.FirstTwoPlayers | static/xboxController.js:2-15 | The first two users of a page get IDs 1 and 2. |
| XboxController.GetStateForServer | static/xboxController.js:44-56 | The snapshot carries the player ID, both sticks, the four flags and both held-key arrays, in insertion order. For a valid user the arrays list each key once and the sticks lie in range. |
| XboxController.LastAction | static/xboxController.js:27-29 | Names the action of the last event for a key, which is the one that decides whether the key is held. |
| XboxController.SnapshotFollowsLatestEvent | static/xboxController.js:27-56 | After a sequence of face-button events, a key is in the snapshot iff its last event was "pressed". With no event for it, it is there iff it was held before. The array stays duplicate-free. |
| XboxController.PressReleaseScenario | static/xboxController.js:27-56 | A face key pressed shows up in the next snapshot, and is gone from the snapshot after its release. |
| TouchControls.HandlePress | static/xboxController.js:244-250 | "dpad" and "face" press the key in their group and change nothing else. "digital" sets that flag to true. Any other type changes nothing. |
| TouchControls.HandleRelease | static/xboxController.js:252-258 | The release counterpart of `HandlePress`. The sticks are never touched. |
| TouchControls.HandlePressIdempotent | static/xboxController.js:244-250 | Pressing twice is pressing once. |
| TouchControls.ResetStick | static/xboxController.js:236-241 | The named stick is exactly (0, 0); the other stick and all buttons are unchanged. |
| TouchControls.DragStick | static/xboxController.js:217-231 | The stick gets exactly the clamped position from the geometry, so it stays in range. It is the position itself when that is in range. The other stick and every button are unchanged. |
| TouchControls.ButtonTouchStart | static/xboxController.js:167-173 | The touch is recorded as a button touch with its type and key, and the press is applied. |
| TouchControls.StickTouchStart | static/xboxController.js:153-159 | The touch is recorded as a stick touch and the stick is dragged to the touch's position. |
| TouchControls.TouchMove | static/xboxController.js:188-194 | Only a recorded stick touch moves its stick. Any other touch changes nothing, and the touch table never changes. |
| TouchControls.ButtonTouchEnd | static/xboxController.js:175-184 | A recorded button touch releases the key recorded at its touchstart and is removed. Any other touch, stick touches included, changes nothing. |
| TouchControls.DocumentTouchEnd | static/xboxController.js:197-205 | A recorded stick touch recentres its stick and is removed. Button touches and unknown ids change nothing. |
| TouchControls.TouchEnd | static/xboxController.js:175-205 | Ending a touch removes exactly that id from the table. An unknown id changes nothing. |
| TouchControls.ButtonTouchRoundTrip | static/xboxController.js:167-258 | Starting and ending a button touch on a key or flag that was not held restores the surface exactly. This holds for every type: face and D-pad keys, the four digital flags, and unknown types and names. |
| TouchControls.DigitalTouchEndsReleased | static/xboxController.js:167-184 | After a digital button's touch ends, its flag is false and the touch is gone. |
| TouchControls.StickTouchRecentres | static/xboxController.js:153-241 | After a stick touch, any moves and its end, that stick is at exactly (0, 0). The touch table and the buttons are as before. The other stick keeps its position when no touch drives it. |
| TouchControls.SecondFingerDoesNotHoldKey | static/xboxController.js:167-184 | With two fingers on the same face key, lifting one releases the key while the other finger's touch stays recorded. |
| TouchControls.MoveAll | static/xboxController.js:188-194 | The touchmove handler over every touch of the event keeps a valid user valid. An event none of whose touches is a recorded stick touch changes nothing. |
| TouchControls.MoveAllKeepsTable | static/xboxController.js:188-194 | Any number of moves keep the touch table and every button and flag. |
| TouchControls.MoveAllOnlyMovesStartedSticks | static/xboxController.js:188-194 | A stick with no recorded touch does not move, whatever the touches are. |
| TouchControls.DocumentTouchEndAll | static/xboxController.js:197-205 | Ending a batch removes exactly the listed stick touches and leaves the stick of each of them at (0, 0). A stick that no listed touch drives keeps its position. Every other entry is kept, and nothing but the sticks changes: keys, flags and player ID included. |
| TouchControls.ButtonTouchEndAll | static/xboxController.js:175-184 | Ending a batch on a button removes exactly the listed button touches. The key or flag each of them recorded is no longer held, and nothing becomes held. A key or flag held before that no listed touch recorded stays held. Every other entry is kept, and the sticks are unchanged. |
| TouchControls.ButtonTouchStartAll | static/xboxController.js:167-173 | Every touch in a batch is recorded for the button and the others are kept. One press is applied, since repeated presses coincide. |
| Connection.Backoff | static/xboxController.js:129 | The delay is linear in the attempt, 3000 ms per attempt, up to the third attempt and 9000 ms from then on. For any attempt from 1 it lies between 3000 and 9000 ms. |
| Connection.AttemptReconnect | static/xboxController.js:122-134 | With the counter at 10 or more, nothing is scheduled and nothing changes. Otherwise the counter grows by one and one connect is scheduled after 3000·min(counter, 3) ms. |
| Connection.RetryDelays | static/xboxController.js:122-134 | From counter a, k retries schedule min(k, 10−a) delays. The i-th is 3000·min(a+i+1, 3). |
| Connection.RetriesSpent | static/xboxController.js:122-126 | With the counter at 10 or more, any number of calls schedule nothing. |
| Connection.BackoffSchedule | static/xboxController.js:122-134 | From a fresh counter the delays are 3000, 6000 and then 9000 eight times, and no more. |
| Connection.StartSendingState | static/xboxController.js:100-113 | The old interval is cleared and exactly one live interval remains, the new handle. Nothing else changes. |
| Connection.StopSendingState | static/xboxController.js:115-120 | No handle and no live interval remain. With no interval it changes nothing. |
| Connection.StopSendingStateIdempotent | static/xboxController.js:115-120 | Stopping twice is stopping once. |
| Connection.Connect | static/xboxController.js:69-98 | A throwing constructor is exactly `attemptReconnect`: it schedules a retry iff the counter is not spent, and then the counter and the pending connects grow by one. Otherwise only the socket changes, to connecting, and nothing is scheduled. |
| Connection.PageLoad | static/xboxController.js:62-137 | The page-load connect reaches a state of the invariant. It is either connecting, or it has scheduled a first retry after 3000 ms. |
| Connection.Step | static/xboxController.js:78-97 | Every event keeps the invariant: counter in [0, 10], at most one live interval, which is the handle, live iff the socket is open or closing, and at most one pending retry. A step that schedules bumps the counter by one. An error changes nothing. |
| Connection.OpenResetsAndStartsSending | static/xboxController.js:78-82 | `onopen` resets the counter to 0 and leaves exactly one live send interval. |
| Connection.CloseStopsSending | static/xboxController.js:84-88 | `onclose` leaves no live interval. It schedules a retry iff the counter is below 10. |
| Connection.Run | static/xboxController.js:62-134 | Any event sequence keeps the invariant. |
| Connection.AtMostTenReconnectsWithoutOpen | static/xboxController.js:63-134 | With no open in between, every scheduled retry is counted. At most 10 − (starting counter) are scheduled. |
| Connection.ExhaustedIsFinal | static/xboxController.js:122-126 | Once the counter is spent, no retry is pending and the socket is closed or was never created, no event changes the state or schedules anything. |
| Connection.SpentCounterGivesUp | static/xboxController.js:84-126 | A close with the counter spent schedules nothing now or later, whatever events follow. |
| Connection.FailedRound | static/xboxController.js:69-134 | Below the limit, a close schedules the next backoff, and the timer that follows starts a new socket connecting with the counter one higher. |
| Connection.FailedHandshakesFollowSchedule | static/xboxController.js:84-134 | k failed handshakes from a connecting socket schedule exactly the backoff delays. Beyond the limit the client has given up for good. |
| Connection.FailedRoundRun | static/xboxController.js:84-134 | One failed handshake below the limit schedules the next backoff. It leaves a new socket connecting with the counter one higher, and the remaining handshakes run from there. |
| Connection.Tick | static/xboxController.js:103-112 | An interval tick sends the user's snapshot once when the socket is open and nothing otherwise, closing included. |
| Connection.ClosingHandshakeSendsNothing | static/xboxController.js:84-112 | Once the server starts closing an open socket, the interval stays live but ticks send nothing. The close that follows does what a close of the open socket would have done. |
| Connection.NoSendsUntilReopened | static/xboxController.js:84-120 | After a close, no event sequence without an open lets a tick send anything. |
| Connection.RepeatedTicksRepeatSnapshot | static/xboxController.js:103-112 | While open, ticks keep sending the same snapshot of an unchanged user. |
| Receiver.PressAdded | virtual_controller.py:56-70 | One press per mapped key in current − previous, and nothing for unmapped keys. The held set grows by exactly their buttons. |
| Receiver.ReleaseRemoved | virtual_controller.py:60-74 | One release per mapped key in previous − current. The held set loses exactly their buttons. |
| Receiver.DiffMovesImage | virtual_controller.py:56-76 | For an injective map, if the held buttons of a group were the image of the previous keys, after the diff they are the image of the current keys. |
| Receiver.SteadyKeyOutsideDiff | virtual_controller.py:56-74 | For an injective map, a key held in both snapshots or in neither sends no button in either difference. |
| Receiver.DiffGroup | virtual_controller.py:54-76 | Presses are exactly the buttons of mapped keys in current − previous and releases exactly those in previous − current. Keys in both snapshots and unmapped keys cause no call. All presses come before all releases. The group's held buttons move from the previous image to the current one. |
| Receiver.ScalarActions | virtual_controller.py:31-52 | The six calls before the diffs press exactly the shoulders whose flag is set and release exactly the others. |
| Receiver.ScalarEffect | virtual_controller.py:31-52 | Sticks are passed through and triggers are 255 or 0 according to L2 and R2. The shoulders are held iff L1 and R1, whatever they were, and no other button changes. |
| Receiver.ScalarButtons | virtual_controller.py:39-47 | The scalar calls press or release only the shoulders. |
| Receiver.CallLayout | virtual_controller.py:31-78 | The calls come in source order: the scalar calls, then the face diff, then the D-pad diff, with the report last. Running them is running the three parts in turn. |
| Receiver.GroupSegments | virtual_controller.py:54-76 | After the six scalar calls, one segment holds only face-group presses and releases and the next holds only D-pad-group ones, up to the report. |
| Receiver.HeldByGroup | virtual_controller.py:54-76 | After both diffs, the shoulders are as the scalar calls left them. Each group's held buttons match the keys just received, given that they matched the remembered keys before. |
| Receiver.FaceMapFacts | virtual_controller.py:11-16 | The face map sends a, b, x, y to four distinct buttons, A, B, X, Y. |
| Receiver.DPadMapFacts | virtual_controller.py:18-23 | The D-pad map sends up, down, left, right to the four distinct directions. |
| Receiver.InitialSoundAndTracks | virtual_controller.py:8-26 | A new receiver has sound maps, and its empty memory matches its empty gamepad. |
| Receiver.UpdateState | virtual_controller.py:28-78 | The call list is: sticks; the shoulders as pressed or released; the triggers as 0 or 255; the face diff; the D-pad diff; one report, last. The remembered keys become the received arrays as sets, unmapped keys included. The group's held buttons keep matching the memory. |
| Receiver.Deliver | virtual_controller.py:28-78 | A user's snapshot delivered to a tracking receiver leaves the gamepad with: the buttons of exactly the user's held keys; shoulders and triggers as the user's flags; sticks at the user's positions. |

## Left out

- Stick geometry (`startDrag`, `updateStick`, static/xboxController.js:208-234). It uses square roots, floating division and page measurements. With a zero radius it divides 0 by 0. Its clamped output is a parameter of the touch handlers instead.
- Page wiring: element lookup, listener registration, `preventDefault` and CSS transforms (static/xboxController.js:142-165,233,238). Only the handlers' effect on the user and the touch table is modelled.
- URL construction, `console` logging, JSON encoding and `ws.send`. A tick's result is the list of snapshots it would send.
- Real timers: a send interval is a handle in a set of live intervals. A pending `setTimeout` is a counter. Time itself and the 16 ms period are not modelled.
- Connection.Step: `onopen`, `onclose` and the start of a closing handshake are assumed to fire only for a socket in a state where the browser delivers them. `onopen` fires while connecting; a closing handshake starts while open; `onclose` fires while connecting, open or closing.
- Connection.Step: callbacks of a socket the script has already replaced are not modelled.
- Number precision: the player counter and the retry counter are unbounded integers. JavaScript numbers lose precision only far beyond any reachable count.
- Stick positions are reals, so NaN and infinities are not representable.
- The receiver's network loop (virtual_controller.py:80-120): asynchronous I/O with a fixed 3 s retry.
- The `vgamepad` driver: float-to-integer conversion of stick values, and the device report itself, which is the `Commit` call.
- A snapshot with missing fields makes `update_state` throw partway. Snapshots here are always complete.
- Receiver.UpdateState: Python's set iteration order is not modelled. Within each diff loop the model picks the next key arbitrarily, so its contract holds for every order.
- Receiver.UpdateState: the per-group press, release and tracking facts are stated under `KeyMapsSound`. The receiver's own maps meet it (`Receiver.InitialSoundAndTracks`).
- The relay server (ControllerPhone/server.py): it forwards every message to every other client, over concurrent blocking connections.

=== FILE: connection.dfy ===
/**
 * The phone's WebSocket client: connect, reconnect with capped linear backoff,
 * and the fixed-rate send loop. Timers are modelled only by their effect: the
 * set of live send intervals with the handle kept in `sendInterval`, and a count
 * of reconnect timeouts scheduled but not yet fired.
 */
module Connection {
  import opened Wrappers
  import opened XboxController

  const MaxReconnectAttempts: int := 10
  const ReconnectDelay: int := 3000

  /** `readyState` of the current socket; `NoSocket` before one was created. */
  datatype SocketState = NoSocket | Connecting | Open | Closing | Closed

  datatype Client = Client(
    ws: SocketState,
    reconnectAttempts: int,
    sendInterval: Option<nat>,
    liveIntervals: set<nat>,
    nextTimerId: nat,
    pendingConnects: nat)

  /** Events the browser delivers. A constructor that throws is a parameter of the
      reconnect timer, since the model cannot see why `new WebSocket` fails.
      `ClosingStarted` is the server starting the closing handshake: the socket's
      `readyState` becomes CLOSING before `onclose` fires. */
  datatype Event =
    | TimerFires(constructorThrows: bool)
    | SocketOpened
    | ClosingStarted
    | SocketClosed
    | SocketError

  /** The globals as the script declares them, before the page-load connect. */
  const Declared: Client := Client(NoSocket, 0, None, {}, 1, 0)

  /** What holds of every state the client reaches. */
  predicate Inv(c: Client) {
    && 0 <= c.reconnectAttempts <= MaxReconnectAttempts
    && c.liveIntervals == (if c.sendInterval.Some? then {c.sendInterval.value} else {})
    && (c.sendInterval.Some? ==> c.sendInterval.value < c.nextTimerId)
    && (c.ws == Open || c.ws == Closing <==> c.sendInterval.Some?)
    && c.pendingConnects <= 1
    && (c.ws == Connecting || c.ws == Open || c.ws == Closing ==> c.pendingConnects == 0)
  }

  /** No retry will ever happen again: the counter is spent and nothing is pending or open. */
  predicate Exhausted(c: Client) {
    c.reconnectAttempts >= MaxReconnectAttempts && c.pendingConnects == 0
    && (c.ws == NoSocket || c.ws == Closed)
  }

  function MinInt(a: int, b: int): int {
    if a <= b then a else b
  }

  /** The delay before reconnect attempt number `attempt`: linear in the attempt up to
      the third, then capped. */
  function Backoff(attempt: int): (delay: int)
    ensures attempt <= 3 ==> delay == ReconnectDelay * attempt
    ensures attempt >= 3 ==> delay == 3 * ReconnectDelay
    ensures 1 <= attempt ==> ReconnectDelay <= delay <= 3 * ReconnectDelay
  {
    ReconnectDelay * MinInt(attempt, 3)
  }

  /** `attemptReconnect`: below the limit, counts the attempt and schedules a
      connect after the backoff for it; at the limit, does nothing. */
  function AttemptReconnect(c: Client): (r: (Client, Option<int>))
    ensures c.reconnectAttempts >= MaxReconnectAttempts <==> r.1.None?
    ensures r.1.None? ==> r.0 == c
    ensures r.1.Some? ==>
      && r.0 == c.(reconnectAttempts := c.reconnectAttempts + 1, pendingConnects := c.pendingConnects + 1)
      && r.1.value == 3000 * (if r.0.reconnectAttempts <= 3 then r.0.reconnectAttempts else 3)
  {
    if c.reconnectAttempts >= MaxReconnectAttempts then (c, None)
    else
      var attempts := c.reconnectAttempts + 1;
      (c.(reconnectAttempts := attempts, pendingConnects := c.pendingConnects + 1), Some(Backoff(attempts)))
  }

  /** `startSendingState`: clears the old interval if there is one and starts a new one. */
  function StartSendingState(c: Client): (r: Client)
    ensures r.sendInterval == Some(c.nextTimerId) && r.nextTimerId == c.nextTimerId + 1
    ensures c.nextTimerId in r.liveIntervals
    ensures Inv(c) ==> r.liveIntervals == {c.nextTimerId}
    ensures r.(sendInterval := c.sendInterval, liveIntervals := c.liveIntervals, nextTimerId := c.nextTimerId) == c
  {
    var live := if c.sendInterval.Some? then c.liveIntervals - {c.sendInterval.value} else c.liveIntervals;
    c.(sendInterval := Some(c.nextTimerId), liveIntervals := live + {c.nextTimerId},
       nextTimerId := c.nextTimerId + 1)
  }

  /** `stopSendingState`: clears the interval if there is one; safe to call with none. */
  function StopSendingState(c: Client): (r: Client)
    ensures r.sendInterval.None?
    ensures c.sendInterval.None? ==> r == c
    ensures Inv(c) ==> r.liveIntervals == {}
    ensures r.liveIntervals <= c.liveIntervals
    ensures r.(sendInterval := c.sendInterval, liveIntervals := c.liveIntervals) == c
  {
    if c.sendInterval.Some? then
      c.(sendInterval := None, liveIntervals := c.liveIntervals - {c.sendInterval.value})
    else c
  }

  lemma StopSendingStateIdempotent(c: Client)
    ensures StopSendingState(StopSendingState(c)) == StopSendingState(c)
  {
  }

  /** `connectWebSocket`: a throwing constructor goes straight to a reconnect; otherwise a
      new socket starts connecting with the handlers attached. */
  function Connect(c: Client, constructorThrows: bool): (r: (Client, Option<int>))
    ensures r.1.Some? ==> constructorThrows
    ensures constructorThrows ==> (r.1.Some? <==> c.reconnectAttempts < MaxReconnectAttempts)
    ensures constructorThrows ==> r == AttemptReconnect(c)
    ensures constructorThrows && r.1.Some? ==>
      r.0.reconnectAttempts == c.reconnectAttempts + 1 && r.0.pendingConnects == c.pendingConnects + 1
    ensures !constructorThrows ==> r == (c.(ws := Connecting), None)
  {
    if constructorThrows then AttemptReconnect(c) else (c.(ws := Connecting), None)
  }

  /** The page-load call to `connectWebSocket`. */
  function PageLoad(constructorThrows: bool): (r: (Client, Option<int>))
    ensures Inv(r.0)
    ensures constructorThrows ==> r.1 == Some(3000) && r.0.reconnectAttempts == 1
    ensures !constructorThrows ==> r.1.None? && r.0.ws == Connecting
  {
    Connect(Declared, constructorThrows)
  }

  /** One event. `onopen` and `onclose` only fire for a socket in a state where the
      browser delivers them; `onerror` only logs. Returns the new state and the delay
      of the reconnect it schedules, if any. */
  function Step(c: Client, e: Event): (r: (Client, Option<int>))
    ensures Inv(c) ==> Inv(r.0)
    ensures r.1.Some? ==> r.0.reconnectAttempts == c.reconnectAttempts + 1
    ensures r.1.None? && e != SocketOpened ==> r.0.reconnectAttempts == c.reconnectAttempts
    ensures e == SocketError ==> r == (c, None)
  {
    match e
    case TimerFires(throws) =>
      if c.pendingConnects == 0 then (c, None)
      else Connect(c.(pendingConnects := c.pendingConnects - 1), throws)
    case SocketOpened =>
      if c.ws == Connecting then (StartSendingState(c.(ws := Open, reconnectAttempts := 0)), None)
      else (c, None)
    case ClosingStarted =>
      if c.ws == Open then (c.(ws := Closing), None) else (c, None)
    case SocketClosed =>
      if c.ws == Connecting || c.ws == Open || c.ws == Closing then
        AttemptReconnect(StopSendingState(c.(ws := Closed)))
      else (c, None)
    case SocketError =>
      (c, None)
  }

  /** `onopen` resets the counter and leaves exactly one live send interval. */
  lemma OpenResetsAndStartsSending(c: Client)
    requires Inv(c) && c.ws == Connecting
    ensures var r := Step(c, SocketOpened).0;
      && r.ws == Open && r.reconnectAttempts == 0
      && r.sendInterval.Some? && r.liveIntervals == {r.sendInterval.value}
  {
  }

  /** `onclose` leaves no live send interval and schedules a retry unless the counter is spent. */
  lemma CloseStopsSending(c: Client)
    requires Inv(c) && (c.ws == Connecting || c.ws == Open || c.ws == Closing)
    ensures var (r, delay) := Step(c, SocketClosed);
      && r.ws == Closed && r.liveIntervals == {} && r.sendInterval.None?
      && (delay.Some? <==> c.reconnectAttempts < MaxReconnectAttempts)
  {
  }

  /** The delay a step scheduled, as a list of zero or one delays. */
  function Scheduled(delay: Option<int>): (r: seq<int>)
    ensures |r| == (if delay.Some? then 1 else 0)
  {
    if delay.Some? then [delay.value] else []
  }

  /** Runs events in order, collecting the delays of the reconnects scheduled. */
  function Run(c: Client, events: seq<Event>): (r: (Client, seq<int>))
    ensures Inv(c) ==> Inv(r.0)
    decreases |events|
  {
    if |events| == 0 then (c, [])
    else
      var step := Step(c, events[0]);
      var rest := Run(step.0, events[1..]);
      (rest.0, Scheduled(step.1) + rest.1)
  }

  /** Between two opens the counter only grows, by one per scheduled reconnect, so at
      most ten reconnects are scheduled in all. */
  lemma {:induction false} AtMostTenReconnectsWithoutOpen(c: Client, events: seq<Event>)
    requires Inv(c)
    requires forall i :: 0 <= i < |events| ==> events[i] != SocketOpened
    ensures Run(c, events).0.reconnectAttempts == c.reconnectAttempts + |Run(c, events).1|
    ensures |Run(c, events).1| <= MaxReconnectAttempts - c.reconnectAttempts
    decreases |events|
  {
    if |events| > 0 {
      var next := Step(c, events[0]).0;
      AtMostTenReconnectsWithoutOpen(next, events[1..]);
    }
  }

  /** Once exhausted, no event changes anything or schedules anything. */
  lemma {:induction false} ExhaustedIsFinal(c: Client, events: seq<Event>)
    requires Exhausted(c)
    ensures Run(c, events) == (c, [])
    decreases |events|
  {
    if |events| > 0 {
      var step := Step(c, events[0]);
      assert step == (c, None);
      ExhaustedIsFinal(c, events[1..]);
      var rest := Run(step.0, events[1..]);
      assert rest == (c, []);
      assert Scheduled(step.1) == [];
      assert Run(c, events) == (rest.0, Scheduled(step.1) + rest.1);
      assert Scheduled(step.1) + rest.1 == [];
      assert Run(c, events).0 == c;
    }
  }

  /** The delays `k` back-to-back calls of `attemptReconnect` schedule, starting from `attempts`. */
  function Retries(attempts: int, k: nat): (delays: seq<int>)
    decreases k
  {
    if k == 0 then []
    else
      var step := AttemptReconnect(Declared.(reconnectAttempts := attempts));
      Scheduled(step.1) + Retries(step.0.reconnectAttempts, k - 1)
  }

  /** The i-th retry (from 1) after `attempts` waits 3000·min(attempts + i, 3) ms, and
      retries stop once the counter reaches ten. */
  lemma {:induction false} RetryDelays(attempts: int, k: nat)
    requires 0 <= attempts <= MaxReconnectAttempts
    ensures |Retries(attempts, k)| == MinInt(k, MaxReconnectAttempts - attempts)
    ensures forall i :: 0 <= i < |Retries(attempts, k)| ==>
      Retries(attempts, k)[i] == 3000 * MinInt(attempts + i + 1, 3)
    decreases k
  {
    if k > 0 {
      if attempts < MaxReconnectAttempts {
        RetriesFirst(attempts, k);
        RetryDelays(attempts + 1, k - 1);
        var rest := Retries(attempts + 1, k - 1);
        forall i | 0 <= i < |Retries(attempts, k)|
          ensures Retries(attempts, k)[i] == 3000 * MinInt(attempts + i + 1, 3)
        {
          if i > 0 {
            assert Retries(attempts, k)[i] == rest[i - 1];
          }
        }
      } else {
        RetriesSpent(attempts, k);
      }
    }
  }

  /** With the counter spent, no call schedules anything. */
  lemma {:induction false} RetriesSpent(attempts: int, k: nat)
    requires attempts >= MaxReconnectAttempts
    ensures Retries(attempts, k) == []
    decreases k
  {
    if k > 0 {
      var step := AttemptReconnect(Declared.(reconnectAttempts := attempts));
      assert step.0.reconnectAttempts == attempts && step.1.None?;
      RetriesSpent(attempts, k - 1);
    }
  }

  /** From a fresh counter: 3000, 6000, 9000 and then 9000 seven more times; nothing after the tenth. */
  lemma BackoffSchedule()
    ensures Retries(0, 12) == [3000, 6000, 9000, 9000, 9000, 9000, 9000, 9000, 9000, 9000]
  {
    RetryDelays(0, 12);
  }

  /** A handshake that fails every time: the socket closes before opening, then the timer reconnects. */
  function FailedHandshakes(k: nat): (events: seq<Event>)
    ensures |events| == 2 * k
    ensures forall i :: 0 <= i < |events| ==> events[i] != SocketOpened
  {
    if k == 0 then [] else [SocketClosed, TimerFires(false)] + FailedHandshakes(k - 1)
  }

  /** A server that never accepts gets exactly the retry schedule, and then the client
      gives up for good. */
  lemma {:induction false} FailedHandshakesFollowSchedule(c: Client, k: nat)
    requires Inv(c) && c.ws == Connecting
    ensures Run(c, FailedHandshakes(k)).1 == Retries(c.reconnectAttempts, k)
    ensures c.reconnectAttempts + k > MaxReconnectAttempts ==> Exhausted(Run(c, FailedHandshakes(k)).0)
    decreases k
  {
    if k > 0 {
      var a := c.reconnectAttempts;
      if a < MaxReconnectAttempts {
        var reopened := FailedRoundRun(c, k);
        FailedHandshakesFollowSchedule(reopened, k - 1);
        var rest := Run(reopened, FailedHandshakes(k - 1));
        var whole := Run(c, FailedHandshakes(k));
        ScheduleAfterRound(a, k, whole.1, rest.1);
      } else {
        SpentCounterFailsAll(c, k);
      }
    }
  }

  /** Prefixing the next backoff to the schedule of the remaining retries gives the schedule
      of all of them. */
  lemma ScheduleAfterRound(attempts: int, k: nat, delays: seq<int>, rest: seq<int>)
    requires 0 <= attempts < MaxReconnectAttempts && k > 0
    requires delays == [Backoff(attempts + 1)] + rest && rest == Retries(attempts + 1, k - 1)
    ensures delays == Retries(attempts, k)
  {
    RetriesFirst(attempts, k);
  }

  /** With the counter spent, failed handshakes schedule nothing and the client gives up. */
  lemma SpentCounterFailsAll(c: Client, k: nat)
    requires Inv(c) && c.ws == Connecting && c.reconnectAttempts >= MaxReconnectAttempts && k > 0
    ensures Run(c, FailedHandshakes(k)).1 == []
    ensures Retries(c.reconnectAttempts, k) == []
    ensures Exhausted(Run(c, FailedHandshakes(k)).0)
  {
    assert FailedHandshakes(k) == [SocketClosed] + ([TimerFires(false)] + FailedHandshakes(k - 1));
    SpentCounterGivesUp(c, [TimerFires(false)] + FailedHandshakes(k - 1));
    RetriesSpent(c.reconnectAttempts, k);
  }

  /** The first failed handshake below the limit schedules the next backoff and leaves a
      new socket connecting, from which the remaining handshakes run. */
  lemma FailedRoundRun(c: Client, k: nat) returns (reopened: Client)
    requires Inv(c) && c.ws == Connecting && c.reconnectAttempts < MaxReconnectAttempts && k > 0
    ensures reopened == Step(Step(c, SocketClosed).0, TimerFires(false)).0
    ensures var rest := Run(reopened, FailedHandshakes(k - 1));
      && Inv(reopened) && reopened.ws == Connecting
      && reopened.reconnectAttempts == c.reconnectAttempts + 1
      && Run(c, FailedHandshakes(k)).0 == rest.0
      && Run(c, FailedHandshakes(k)).1 == [Backoff(c.reconnectAttempts + 1)] + rest.1
  {
    var tail := FailedHandshakes(k - 1);
    assert FailedHandshakes(k) == [SocketClosed] + ([TimerFires(false)] + tail);
    RunFirst(c, SocketClosed, [TimerFires(false)] + tail);
    var closed := Step(c, SocketClosed);
    FailedRound(c);
    RunFirst(closed.0, TimerFires(false), tail);
    var next := Step(closed.0, TimerFires(false));
    var rest := Run(next.0, tail);
    assert Scheduled(closed.1) == [Backoff(c.reconnectAttempts + 1)];
    assert Scheduled(next.1) + rest.1 == rest.1;
    reopened := next.0;
  }

  /** The first of `k` retries below the limit waits the backoff for the next attempt. */
  lemma RetriesFirst(attempts: int, k: nat)
    requires 0 <= attempts < MaxReconnectAttempts && k > 0
    ensures Retries(attempts, k) == [Backoff(attempts + 1)] + Retries(attempts + 1, k - 1)
  {
    var step := AttemptReconnect(Declared.(reconnectAttempts := attempts));
    assert step.0.reconnectAttempts == attempts + 1 && step.1 == Some(Backoff(attempts + 1));
  }

  /** With the counter spent, closing the connecting socket gives up for good. */
  lemma SpentCounterGivesUp(c: Client, rest: seq<Event>)
    requires Inv(c) && c.ws == Connecting && c.reconnectAttempts >= MaxReconnectAttempts
    ensures Run(c, [SocketClosed] + rest) == (Step(c, SocketClosed).0, [])
    ensures Exhausted(Step(c, SocketClosed).0)
  {
    RunFirst(c, SocketClosed, rest);
    var closed := Step(c, SocketClosed);
    assert closed.1.None? && Exhausted(closed.0);
    ExhaustedIsFinal(closed.0, rest);
    assert Scheduled(closed.1) + Run(closed.0, rest).1 == [];
  }

  /** One failed handshake below the limit: the close schedules the next backoff and the
      timer starts a new socket connecting. */
  lemma FailedRound(c: Client)
    requires Inv(c) && c.ws == Connecting && c.reconnectAttempts < MaxReconnectAttempts
    ensures var closed := Step(c, SocketClosed);
      var reopened := Step(closed.0, TimerFires(false));
      && closed.1 == Some(Backoff(c.reconnectAttempts + 1))
      && reopened.1.None?
      && reopened.0.ws == Connecting
      && reopened.0.reconnectAttempts == c.reconnectAttempts + 1
      && Inv(reopened.0)
  {
  }

  /** Running a sequence is running its first event, then the rest. */
  lemma RunFirst(c: Client, e: Event, rest: seq<Event>)
    ensures var step := Step(c, e);
      Run(c, [e] + rest) == (Run(step.0, rest).0, Scheduled(step.1) + Run(step.0, rest).1)
  {
    assert ([e] + rest)[1..] == rest;
  }

  // ---------------------------------------------------------------------------
  // The send loop

  /** One firing of the interval timers: every live interval sends a snapshot if the socket is open. */
  function Tick(c: Client, u: User): (sent: seq<StateView>)
    ensures forall i :: 0 <= i < |sent| ==> sent[i] == GetStateForServer(u)
    ensures |sent| > 0 ==> c.ws == Open
    ensures Inv(c) ==> |sent| == (if c.ws == Open then 1 else 0)
  {
    if c.ws == Open then seq(|c.liveIntervals|, _ => GetStateForServer(u)) else []
  }

  /** During a closing handshake the interval is still live but sends nothing, and the
      close that ends it does what a close of the open socket would have done. */
  lemma ClosingHandshakeSendsNothing(c: Client, u: User)
    requires Inv(c) && c.ws == Open
    ensures var closing := Step(c, ClosingStarted);
      && closing.1.None? && closing.0.ws == Closing
      && closing.0.liveIntervals == c.liveIntervals && closing.0.liveIntervals != {}
      && Tick(closing.0, u) == []
      && Step(closing.0, SocketClosed) == Step(c, SocketClosed)
  {
  }

  /** Nothing is sent from a close until the next open, whatever else happens. */
  lemma {:induction false} NoSendsUntilReopened(c: Client, events: seq<Event>, u: User)
    requires Inv(c) && c.ws != Open
    requires forall i :: 0 <= i < |events| ==> events[i] != SocketOpened
    ensures Tick(Run(c, events).0, u) == []
    ensures Run(c, events).0.ws != Open
    decreases |events|
  {
    if |events| > 0 {
      NoSendsUntilReopened(Step(c, events[0]).0, events[1..], u);
    }
  }

  /** While the socket stays open, ticks resend the current snapshot, identical when the
      user did not change. */
  lemma RepeatedTicksRepeatSnapshot(c: Client, u: User)
    requires Inv(c) && c.ws == Open
    ensures Tick(c, u) + Tick(c, u) + Tick(c, u)
         == [GetStateForServer(u), GetStateForServer(u), GetStateForServer(u)]
  {
  }
}

=== FILE: insertion_set.dfy ===
/**
 * A JavaScript `Set`, modelled as the sequence of its members in insertion
 * order. `Array.from(set)` lists the members in exactly this order, so the
 * sequence is also what a snapshot of the set serialises.
 */
module InsertionSet {

  /** No member occurs twice: the representation invariant of a `Set`. */
  predicate NoDup<T(==)>(s: seq<T>) {
    forall i, j :: 0 <= i < j < |s| ==> s[i] != s[j]
  }

  /** `Set.prototype.add`: a new member goes to the end, a present one keeps its place. */
  function Add<T(==,!new)>(s: seq<T>, k: T): (r: seq<T>)
    ensures forall x :: x in r <==> x in s || x == k
    ensures |s| <= |r| && r[..|s|] == s
    ensures k in s ==> r == s
    ensures NoDup(s) ==> NoDup(r)
  {
    if k in s then s else s + [k]
  }

  /** `Set.prototype.delete`: drops `k`, keeping the order of the other members. */
  function Delete<T(==,!new)>(s: seq<T>, k: T): (r: seq<T>)
    ensures forall x :: x in r <==> x in s && x != k
    ensures |r| <= |s|
    ensures NoDup(s) ==> NoDup(r)
    decreases |s|
  {
    if |s| == 0 then []
    else if s[0] == k then Delete(s[1..], k)
    else
      assert NoDup(s) ==> s[0] !in s[1..];
      [s[0]] + Delete(s[1..], k)
  }

  /** Deleting an absent member changes nothing. */
  lemma {:induction false} DeleteAbsent<T(!new)>(s: seq<T>, k: T)
    requires k !in s
    ensures Delete(s, k) == s
    decreases |s|
  {
    if |s| > 0 {
      assert s[0] != k;
      DeleteAbsent(s[1..], k);
      assert s == [s[0]] + s[1..];
    }
  }

  /** Deletion distributes over concatenation. */
  lemma {:induction false} DeleteAppend<T(!new)>(a: seq<T>, b: seq<T>, k: T)
    ensures Delete(a + b, k) == Delete(a, k) + Delete(b, k)
    decreases |a|
  {
    if |a| == 0 {
      assert a + b == b;
    } else {
      assert (a + b)[0] == a[0];
      assert (a + b)[1..] == a[1..] + b;
      DeleteAppend(a[1..], b, k);
    }
  }

  /** On a duplicate-free sequence, deletion removes the one entry holding `k`
      and leaves every other member in its relative order. */
  lemma {:induction false} DeleteAt<T(!new)>(s: seq<T>, i: int)
    requires NoDup(s) && 0 <= i < |s|
    ensures Delete(s, s[i]) == s[..i] + s[i + 1..]
    decreases |s|
  {
    var k := s[i];
    if i == 0 {
      assert k !in s[1..];
      DeleteAbsent(s[1..], k);
    } else {
      assert s[0] != k;
      assert s[1..][i - 1] == k;
      DeleteAt(s[1..], i - 1);
      assert s[1..][..i - 1] + s[1..][i..] == s[1..i] + s[i + 1..];
      assert s[..i] == [s[0]] + s[1..i];
    }
  }

  /** Adding an absent member and deleting it again restores the set, order included. */
  lemma AddThenDelete<T(!new)>(s: seq<T>, k: T)
    requires k !in s
    ensures Delete(Add(s, k), k) == s
  {
    DeleteAppend(s, [k], k);
    DeleteAbsent(s, k);
    assert Delete([k], k) == [];
  }
}

=== FILE: receiver.dfy ===
/**
 * The PC-side receiver: `VirtualController.update_state` turns each received
 * snapshot into gamepad calls, pressing and releasing face and D-pad buttons by
 * set difference against the keys it held after the previous snapshot. The
 * virtual gamepad is abstracted to its held buttons, trigger and stick values.
 */
module Receiver {
  import opened XboxController

  datatype Button =
    | A | B | X | Y
    | DPadUp | DPadDown | DPadLeft | DPadRight
    | LeftShoulder | RightShoulder

  const FaceButtonMap: map<string, Button> := map["a" := A, "b" := B, "x" := X, "y" := Y]
  const DPadButtonMap: map<string, Button> :=
    map["up" := DPadUp, "down" := DPadDown, "left" := DPadLeft, "right" := DPadRight]

  const FaceGroup: set<Button> := {A, B, X, Y}
  const DPadGroup: set<Button> := {DPadUp, DPadDown, DPadLeft, DPadRight}

  datatype Gamepad = Gamepad(held: set<Button>, leftTrigger: int, rightTrigger: int, leftStick: Stick, rightStick: Stick)

  /** One call on the gamepad; `Commit` is `gamepad.update()`, which sends the report. */
  datatype Action =
    | LeftJoystick(x: real, y: real)
    | RightJoystick(x: real, y: real)
    | Press(button: Button)
    | Release(button: Button)
    | LeftTrigger(value: int)
    | RightTrigger(value: int)
    | Commit

  /** The receiver: its gamepad, its two key maps, and the keys held after the last snapshot. */
  datatype VirtualController = VirtualController(
    gamepad: Gamepad,
    faceButtonMap: map<string, Button>,
    dPadButtonMap: map<string, Button>,
    pressedFaceButtons: set<string>,
    pressedDPadButtons: set<string>)

  /** The receiver right after construction. */
  const Initial: VirtualController :=
    VirtualController(Gamepad({}, 0, 0, Stick(0.0, 0.0), Stick(0.0, 0.0)),
                      FaceButtonMap, DPadButtonMap, {}, {})

  function Perform(g: Gamepad, a: Action): Gamepad {
    match a
    case LeftJoystick(x, y) => g.(leftStick := Stick(x, y))
    case RightJoystick(x, y) => g.(rightStick := Stick(x, y))
    case Press(b) => g.(held := g.held + {b})
    case Release(b) => g.(held := g.held - {b})
    case LeftTrigger(v) => g.(leftTrigger := v)
    case RightTrigger(v) => g.(rightTrigger := v)
    case Commit => g
  }

  /** The gamepad after the calls, in order. */
  function PerformAll(g: Gamepad, acts: seq<Action>): Gamepad
    decreases |acts|
  {
    if |acts| == 0 then g else Perform(PerformAll(g, acts[..|acts| - 1]), acts[|acts| - 1])
  }

  lemma {:induction false} PerformAllAppend(g: Gamepad, a: seq<Action>, b: seq<Action>)
    ensures PerformAll(g, a + b) == PerformAll(PerformAll(g, a), b)
    decreases |b|
  {
    if |b| == 0 {
      assert a + b == a;
    } else {
      assert (a + b)[..|a + b| - 1] == a + b[..|b| - 1];
      PerformAllAppend(g, a, b[..|b| - 1]);
    }
  }

  /** The buttons some call in `acts` presses. */
  function PressedButtons(acts: seq<Action>): set<Button> {
    set a | a in acts && a.Press? :: a.button
  }

  /** The buttons some call in `acts` releases. */
  function ReleasedButtons(acts: seq<Action>): set<Button> {
    set a | a in acts && a.Release? :: a.button
  }

  lemma PressedReleasedConcat(a: seq<Action>, b: seq<Action>)
    ensures PressedButtons(a + b) == PressedButtons(a) + PressedButtons(b)
    ensures ReleasedButtons(a + b) == ReleasedButtons(a) + ReleasedButtons(b)
  {
  }

  predicate OnlyPresses(acts: seq<Action>) {
    forall a :: a in acts ==> a.Press?
  }

  predicate OnlyReleases(acts: seq<Action>) {
    forall a :: a in acts ==> a.Release?
  }

  /** Every call presses or releases a button. */
  predicate ButtonCallsOnly(acts: seq<Action>) {
    forall a :: a in acts ==> a.Press? || a.Release?
  }

  /** Every call presses or releases a button of `group`. */
  predicate GroupCalls(acts: seq<Action>, group: set<Button>) {
    ButtonCallsOnly(acts) && PressedButtons(acts) <= group && ReleasedButtons(acts) <= group
  }

  /** A mapped key held in both snapshots, or in neither, has its button neither pressed nor released. */
  predicate SteadyKeysSilent(m: map<string, Button>, current: set<string>, previous: set<string>, acts: seq<Action>) {
    forall k :: k in m && (k in current <==> k in previous) ==> m[k] !in PressedButtons(acts) && m[k] !in ReleasedButtons(acts)
  }

  /** The buttons a key map sends for the mapped keys among `keys`. */
  function Image(m: map<string, Button>, keys: set<string>): set<Button> {
    set k | k in keys && k in m :: m[k]
  }

  /** The keys among `keys` that the map knows. */
  function Mapped(m: map<string, Button>, keys: set<string>): set<string> {
    set k | k in keys && k in m
  }

  predicate Injective(m: map<string, Button>) {
    forall k1, k2 :: k1 in m && k2 in m && k1 != k2 ==> m[k1] != m[k2]
  }

  lemma ImageAddOne(m: map<string, Button>, keys: set<string>, k: string)
    ensures Image(m, keys + {k}) == Image(m, keys) + (if k in m then {m[k]} else {})
    ensures Mapped(m, keys + {k}) == Mapped(m, keys) + (if k in m then {k} else {})
  {
  }

  /** `set(seq)`: the members of a received button array. */
  function SetOf(s: seq<string>): set<string> {
    set k | k in s
  }

  // ---------------------------------------------------------------------------
  // The two diff loops

  /** What the press loop has done after handling the keys `done`. */
  predicate PressedSoFar(g: Gamepad, g': Gamepad, acts: seq<Action>, m: map<string, Button>, done: set<string>) {
    && g' == PerformAll(g, acts)
    && g' == g.(held := g.held + Image(m, done))
    && (forall a :: a in acts ==> a.Press? && a.button in Image(m, done))
    && (forall b :: b in Image(m, done) ==> Press(b) in acts)
    && |acts| == |Mapped(m, done)|
  }

  /** What the release loop has done after handling the keys `done`. */
  predicate ReleasedSoFar(g: Gamepad, g': Gamepad, acts: seq<Action>, m: map<string, Button>, done: set<string>) {
    && g' == PerformAll(g, acts)
    && g' == g.(held := g.held - Image(m, done))
    && (forall a :: a in acts ==> a.Release? && a.button in Image(m, done))
    && (forall b :: b in Image(m, done) ==> Release(b) in acts)
    && |acts| == |Mapped(m, done)|
  }

  lemma PressStep(g: Gamepad, g': Gamepad, acts: seq<Action>, m: map<string, Button>, done: set<string>, k: string)
    requires PressedSoFar(g, g', acts, m, done) && k !in done && k in m
    ensures PressedSoFar(g, Perform(g', Press(m[k])), acts + [Press(m[k])], m, done + {k})
  {
    ImageAddOne(m, done, k);
    assert k !in Mapped(m, done);
    var acts' := acts + [Press(m[k])];
    assert acts'[..|acts'| - 1] == acts;
    forall a | a in acts'
      ensures a.Press? && a.button in Image(m, done + {k})
    {
      if a != Press(m[k]) {
        assert a in acts;
      }
    }
  }

  lemma PressSkip(g: Gamepad, g': Gamepad, acts: seq<Action>, m: map<string, Button>, done: set<string>, k: string)
    requires PressedSoFar(g, g', acts, m, done) && k !in done && k !in m
    ensures PressedSoFar(g, g', acts, m, done + {k})
  {
    ImageAddOne(m, done, k);
  }

  lemma ReleaseStep(g: Gamepad, g': Gamepad, acts: seq<Action>, m: map<string, Button>, done: set<string>, k: string)
    requires ReleasedSoFar(g, g', acts, m, done) && k !in done && k in m
    ensures ReleasedSoFar(g, Perform(g', Release(m[k])), acts + [Release(m[k])], m, done + {k})
  {
    ImageAddOne(m, done, k);
    assert k !in Mapped(m, done);
    var acts' := acts + [Release(m[k])];
    assert acts'[..|acts'| - 1] == acts;
    forall a | a in acts'
      ensures a.Release? && a.button in Image(m, done + {k})
    {
      if a != Release(m[k]) {
        assert a in acts;
      }
    }
  }

  lemma ReleaseSkip(g: Gamepad, g': Gamepad, acts: seq<Action>, m: map<string, Button>, done: set<string>, k: string)
    requires ReleasedSoFar(g, g', acts, m, done) && k !in done && k !in m
    ensures ReleasedSoFar(g, g', acts, m, done + {k})
  {
    ImageAddOne(m, done, k);
  }

  /** `for button in current - pressed: if mapped, press it`. Python iterates a set in an
      order of its own choosing, so the loop picks any remaining key. */
  method PressAdded(g: Gamepad, current: set<string>, previous: set<string>, m: map<string, Button>)
    returns (g': Gamepad, acts: seq<Action>)
    ensures g' == PerformAll(g, acts)
    ensures g' == g.(held := g.held + Image(m, current - previous))
    ensures OnlyPresses(acts) && PressedButtons(acts) == Image(m, current - previous)
    ensures |acts| == |Mapped(m, current - previous)|
  {
    var todo := current - previous;
    ghost var done: set<string> := {};
    g', acts := g, [];
    while todo != {}
      invariant done <= current - previous && todo == (current - previous) - done
      invariant PressedSoFar(g, g', acts, m, done)
      decreases todo
    {
      var k :| k in todo;
      if k in m {
        PressStep(g, g', acts, m, done, k);
        acts := acts + [Press(m[k])];
        g' := Perform(g', Press(m[k]));
      } else {
        PressSkip(g, g', acts, m, done, k);
      }
      todo := todo - {k};
      done := done + {k};
    }
    assert done == current - previous;
  }

  /** `for button in pressed - current: if mapped, release it`. */
  method ReleaseRemoved(g: Gamepad, current: set<string>, previous: set<string>, m: map<string, Button>)
    returns (g': Gamepad, acts: seq<Action>)
    ensures g' == PerformAll(g, acts)
    ensures g' == g.(held := g.held - Image(m, previous - current))
    ensures OnlyReleases(acts) && ReleasedButtons(acts) == Image(m, previous - current)
    ensures |acts| == |Mapped(m, previous - current)|
  {
    var todo := previous - current;
    ghost var done: set<string> := {};
    g', acts := g, [];
    while todo != {}
      invariant done <= previous - current && todo == (previous - current) - done
      invariant ReleasedSoFar(g, g', acts, m, done)
      decreases todo
    {
      var k :| k in todo;
      if k in m {
        ReleaseStep(g, g', acts, m, done, k);
        acts := acts + [Release(m[k])];
        g' := Perform(g', Release(m[k]));
      } else {
        ReleaseSkip(g, g', acts, m, done, k);
      }
      todo := todo - {k};
      done := done + {k};
    }
    assert done == previous - current;
  }

  /** With an injective map, pressing the image of the new keys and releasing the image
      of the dropped ones moves the group from the image of the old keys to that of the new. */
  lemma DiffMovesImage(m: map<string, Button>, previous: set<string>, current: set<string>, held: set<Button>)
    requires Injective(m)
    requires held * m.Values == Image(m, previous)
    ensures ((held + Image(m, current - previous)) - Image(m, previous - current)) * m.Values
         == Image(m, current)
  {
    var after := (held + Image(m, current - previous)) - Image(m, previous - current);
    forall b | b in after * m.Values
      ensures b in Image(m, current)
    {
      var k :| k in m && m[k] == b;
      if b !in Image(m, current - previous) {
        assert b in Image(m, previous);
        var k' :| k' in previous && k' in m && m[k'] == b;
        assert k' in current;
      } else {
        var k' :| k' in current - previous && k' in m && m[k'] == b;
      }
    }
    forall b | b in Image(m, current)
      ensures b in after * m.Values
    {
      var k :| k in current && k in m && m[k] == b;
      forall k' | k' in previous - current && k' in m
        ensures m[k'] != b
      {
        assert k' != k;
      }
      if k !in previous {
        assert b in Image(m, current - previous);
      } else {
        assert b in Image(m, previous);
      }
    }
  }

  /** Press the new keys, then release the dropped ones, for one button group. */
  method DiffGroup(g: Gamepad, current: set<string>, previous: set<string>, m: map<string, Button>)
    returns (g': Gamepad, acts: seq<Action>)
    ensures g' == PerformAll(g, acts)
    ensures g' == g.(held := (g.held + Image(m, current - previous)) - Image(m, previous - current))
    ensures ButtonCallsOnly(acts)
    ensures exists j :: 0 <= j <= |acts| && OnlyPresses(acts[..j]) && OnlyReleases(acts[j..])
    ensures PressedButtons(acts) == Image(m, current - previous)
    ensures ReleasedButtons(acts) == Image(m, previous - current)
    ensures |acts| == |Mapped(m, current - previous)| + |Mapped(m, previous - current)|
    ensures Injective(m) && g.held * m.Values == Image(m, previous) ==> g'.held * m.Values == Image(m, current)
    ensures Injective(m) ==> SteadyKeysSilent(m, current, previous, acts)
  {
    var g1, pressed := PressAdded(g, current, previous, m);
    var g2, released := ReleaseRemoved(g1, current, previous, m);
    PerformAllAppend(g, pressed, released);
    PressedReleasedConcat(pressed, released);
    g', acts := g2, pressed + released;
    assert acts[..|pressed|] == pressed && acts[|pressed|..] == released;
    if Injective(m) && g.held * m.Values == Image(m, previous) {
      DiffMovesImage(m, previous, current, g.held);
    }
    if Injective(m) {
      forall k | k in m && (k in current <==> k in previous)
        ensures m[k] !in PressedButtons(acts) && m[k] !in ReleasedButtons(acts)
      {
        SteadyKeyOutsideDiff(m, current, previous, k);
      }
    }
  }

  /** Under an injective map, a key held in both snapshots or in neither sends a button
      that neither difference contains. */
  lemma SteadyKeyOutsideDiff(m: map<string, Button>, current: set<string>, previous: set<string>, k: string)
    requires Injective(m) && k in m && (k in current <==> k in previous)
    ensures m[k] !in Image(m, current - previous) && m[k] !in Image(m, previous - current)
  {
    forall k' | k' in m && m[k'] == m[k]
      ensures k' == k
    {
    }
  }

  /** The calls `update_state` makes before the button diffs: both sticks as received,
      the shoulders pressed or released on every call, the triggers at 255 or 0. */
  function ScalarActions(state: StateView): (r: seq<Action>)
    ensures |r| == 6
    ensures PressedButtons(r) == (if state.L1 then {LeftShoulder} else {}) + (if state.R1 then {RightShoulder} else {})
    ensures ReleasedButtons(r) == (if state.L1 then {} else {LeftShoulder}) + (if state.R1 then {} else {RightShoulder})
  {
    [ LeftJoystick(state.leftStick.x, state.leftStick.y),
      RightJoystick(state.rightStick.x, state.rightStick.y),
      if state.L1 then Press(LeftShoulder) else Release(LeftShoulder),
      if state.R1 then Press(RightShoulder) else Release(RightShoulder),
      LeftTrigger(if state.L2 then 255 else 0),
      RightTrigger(if state.R2 then 255 else 0) ]
  }

  const Shoulders: set<Button> := {LeftShoulder, RightShoulder}

  lemma ScalarEffect(g: Gamepad, state: StateView)
    ensures var r := PerformAll(g, ScalarActions(state));
      && r.leftStick == state.leftStick && r.rightStick == state.rightStick
      && r.leftTrigger == (if state.L2 then 255 else 0)
      && r.rightTrigger == (if state.R2 then 255 else 0)
      && r.held - Shoulders == g.held - Shoulders
      && (LeftShoulder in r.held <==> state.L1)
      && (RightShoulder in r.held <==> state.R1)
  {
    var a := ScalarActions(state);
    var g1 := PerformAll(g, a[..1]);
    assert g1 == Perform(g, a[0]) by {
      assert a[..1][..0] == [];
      assert PerformAll(g, a[..1][..0]) == g;
    }
    var g2 := PerformAll(g, a[..2]);
    assert g2 == Perform(g1, a[1]) by { assert a[..2][..1] == a[..1]; }
    var g3 := PerformAll(g, a[..3]);
    assert g3 == Perform(g2, a[2]) by { assert a[..3][..2] == a[..2]; }
    var g4 := PerformAll(g, a[..4]);
    assert g4 == Perform(g3, a[3]) by { assert a[..4][..3] == a[..3]; }
    var g5 := PerformAll(g, a[..5]);
    assert g5 == Perform(g4, a[4]) by { assert a[..5][..4] == a[..4]; }
    assert PerformAll(g, a) == Perform(g5, a[5]) by { assert a[..5] == a[..|a| - 1]; }
  }

  /** The scalar calls press or release only the shoulders. */
  lemma ScalarButtons(state: StateView)
    ensures PressedButtons(ScalarActions(state)) <= Shoulders
    ensures ReleasedButtons(ScalarActions(state)) <= Shoulders
  {
  }

  lemma ImageWithin(m: map<string, Button>, keys: set<string>)
    ensures Image(m, keys) <= m.Values
  {
  }

  /** Pressing and releasing within one group leaves a disjoint group as it was. */
  lemma GroupUntouched(held: set<Button>, added: set<Button>, removed: set<Button>, group: set<Button>, other: set<Button>)
    requires added <= group && removed <= group && group !! other
    ensures ((held + added) - removed) * other == held * other
  {
  }

  /** Buttons drawn from three pairwise disjoint groups sort back into their groups. */
  lemma SplitByGroup(shoulders: set<Button>, face: set<Button>, dpad: set<Button>,
                     faceGroup: set<Button>, dpadGroup: set<Button>)
    requires shoulders <= Shoulders && face <= faceGroup && dpad <= dpadGroup
    requires faceGroup !! dpadGroup && Shoulders !! faceGroup && Shoulders !! dpadGroup
    ensures (shoulders + face + dpad + {}) * faceGroup == face
    ensures (shoulders + face + dpad + {}) * dpadGroup == dpad
  {
  }

  /** The two key maps send distinct buttons, and the face group, the D-pad group and the
      shoulders are apart. */
  predicate KeyMapsSound(vc: VirtualController) {
    && Injective(vc.faceButtonMap) && Injective(vc.dPadButtonMap)
    && vc.faceButtonMap.Values !! vc.dPadButtonMap.Values
    && Shoulders !! vc.faceButtonMap.Values && Shoulders !! vc.dPadButtonMap.Values
  }

  /** The gamepad holds, in each group, exactly the buttons of the mapped keys the receiver remembers. */
  predicate Tracks(vc: VirtualController) {
    && vc.gamepad.held * vc.faceButtonMap.Values == Image(vc.faceButtonMap, vc.pressedFaceButtons)
    && vc.gamepad.held * vc.dPadButtonMap.Values == Image(vc.dPadButtonMap, vc.pressedDPadButtons)
  }

  /** The face map sends its four keys to four distinct face buttons. */
  lemma FaceMapFacts()
    ensures FaceButtonMap.Keys == {"a", "b", "x", "y"}
    ensures FaceButtonMap.Values == FaceGroup
    ensures Injective(FaceButtonMap)
  {
    assert FaceButtonMap["a"] == A && FaceButtonMap["b"] == B;
    assert FaceButtonMap["x"] == X && FaceButtonMap["y"] == Y;
  }

  /** The D-pad map sends its four keys to the four distinct directions. */
  lemma DPadMapFacts()
    ensures DPadButtonMap.Keys == {"up", "down", "left", "right"}
    ensures DPadButtonMap.Values == DPadGroup
    ensures Injective(DPadButtonMap)
  {
    assert DPadButtonMap["up"] == DPadUp && DPadButtonMap["down"] == DPadDown;
    assert DPadButtonMap["left"] == DPadLeft && DPadButtonMap["right"] == DPadRight;
  }

  /** The maps the constructor builds are sound, and a new receiver tracks its empty gamepad. */
  lemma InitialSoundAndTracks()
    ensures KeyMapsSound(Initial) && Tracks(Initial)
  {
    FaceMapFacts();
    DPadMapFacts();
    GroupsApart();
    var vc := Initial;
    assert vc.faceButtonMap == FaceButtonMap && vc.dPadButtonMap == DPadButtonMap;
    assert vc.gamepad.held == {} && vc.pressedFaceButtons == {} && vc.pressedDPadButtons == {};
    assert Image(FaceButtonMap, {}) == {} && Image(DPadButtonMap, {}) == {};
  }

  /** The face group, the D-pad group and the shoulders share no button. */
  lemma GroupsApart()
    ensures FaceGroup !! DPadGroup && Shoulders !! FaceGroup && Shoulders !! DPadGroup
  {
  }

  /** `update_state`: the gamepad calls for one received snapshot, and the receiver's new
      memory of held keys. */
  method UpdateState(vc: VirtualController, state: StateView) returns (vc': VirtualController, acts: seq<Action>)
    ensures vc'.faceButtonMap == vc.faceButtonMap && vc'.dPadButtonMap == vc.dPadButtonMap
    ensures vc'.gamepad == PerformAll(vc.gamepad, acts)
    ensures vc'.pressedFaceButtons == SetOf(state.faceButtons)
    ensures vc'.pressedDPadButtons == SetOf(state.DPadButtons)
    ensures |acts| == 7
      + |Mapped(vc.faceButtonMap, SetOf(state.faceButtons) - vc.pressedFaceButtons)|
      + |Mapped(vc.faceButtonMap, vc.pressedFaceButtons - SetOf(state.faceButtons))|
      + |Mapped(vc.dPadButtonMap, SetOf(state.DPadButtons) - vc.pressedDPadButtons)|
      + |Mapped(vc.dPadButtonMap, vc.pressedDPadButtons - SetOf(state.DPadButtons))|
    ensures acts[0] == LeftJoystick(state.leftStick.x, state.leftStick.y)
    ensures acts[1] == RightJoystick(state.rightStick.x, state.rightStick.y)
    ensures acts[2] == (if state.L1 then Press(LeftShoulder) else Release(LeftShoulder))
    ensures acts[3] == (if state.R1 then Press(RightShoulder) else Release(RightShoulder))
    ensures acts[4] == LeftTrigger(if state.L2 then 255 else 0)
    ensures acts[5] == RightTrigger(if state.R2 then 255 else 0)
    ensures acts[..6] == ScalarActions(state)
    ensures exists j ::
              && 6 <= j <= |acts| - 1
              && GroupCalls(acts[6..j], vc.faceButtonMap.Values)
              && GroupCalls(acts[j..|acts| - 1], vc.dPadButtonMap.Values)
    ensures acts[|acts| - 1] == Commit
    ensures vc'.gamepad.leftStick == state.leftStick && vc'.gamepad.rightStick == state.rightStick
    ensures vc'.gamepad.leftTrigger in {0, 255} && (vc'.gamepad.leftTrigger == 255 <==> state.L2)
    ensures vc'.gamepad.rightTrigger in {0, 255} && (vc'.gamepad.rightTrigger == 255 <==> state.R2)
    ensures KeyMapsSound(vc) ==>
      && (LeftShoulder in vc'.gamepad.held <==> state.L1)
      && (RightShoulder in vc'.gamepad.held <==> state.R1)
    ensures KeyMapsSound(vc) ==>
      && PressedButtons(acts) * vc.faceButtonMap.Values
         == Image(vc.faceButtonMap, SetOf(state.faceButtons) - vc.pressedFaceButtons)
      && ReleasedButtons(acts) * vc.faceButtonMap.Values
         == Image(vc.faceButtonMap, vc.pressedFaceButtons - SetOf(state.faceButtons))
      && PressedButtons(acts) * vc.dPadButtonMap.Values
         == Image(vc.dPadButtonMap, SetOf(state.DPadButtons) - vc.pressedDPadButtons)
      && ReleasedButtons(acts) * vc.dPadButtonMap.Values
         == Image(vc.dPadButtonMap, vc.pressedDPadButtons - SetOf(state.DPadButtons))
    ensures KeyMapsSound(vc) && Tracks(vc) ==> Tracks(vc')
  {
    var currentFace := SetOf(state.faceButtons);
    var currentDPad := SetOf(state.DPadButtons);
    var scalar := ScalarActions(state);
    var g0 := PerformAll(vc.gamepad, scalar);
    var g1, faceActs := DiffGroup(g0, currentFace, vc.pressedFaceButtons, vc.faceButtonMap);
    var g2, dpadActs := DiffGroup(g1, currentDPad, vc.pressedDPadButtons, vc.dPadButtonMap);
    acts := scalar + faceActs + dpadActs + [Commit];
    vc' := vc.(gamepad := g2, pressedFaceButtons := currentFace, pressedDPadButtons := currentDPad);
    CallLayout(vc.gamepad, state, faceActs, dpadActs);
    ScalarEffect(vc.gamepad, state);
    ImageWithin(vc.faceButtonMap, currentFace - vc.pressedFaceButtons);
    ImageWithin(vc.faceButtonMap, vc.pressedFaceButtons - currentFace);
    ImageWithin(vc.dPadButtonMap, currentDPad - vc.pressedDPadButtons);
    ImageWithin(vc.dPadButtonMap, vc.pressedDPadButtons - currentDPad);
    GroupSegments(state, faceActs, dpadActs, vc.faceButtonMap.Values, vc.dPadButtonMap.Values);
    if KeyMapsSound(vc) {
      CallsByGroup(state, faceActs, dpadActs, vc.faceButtonMap.Values, vc.dPadButtonMap.Values);
      HeldByGroup(vc, g0, g1, g2, currentFace, currentDPad);
    }
  }

  /** The call list is the scalar calls, the face diff, the D-pad diff and the report, in that order. */
  lemma CallLayout(g: Gamepad, state: StateView, faceActs: seq<Action>, dpadActs: seq<Action>)
    ensures var acts := ScalarActions(state) + faceActs + dpadActs + [Commit];
      && PerformAll(g, acts) == PerformAll(PerformAll(PerformAll(g, ScalarActions(state)), faceActs), dpadActs)
      && acts[0] == LeftJoystick(state.leftStick.x, state.leftStick.y)
      && acts[1] == RightJoystick(state.rightStick.x, state.rightStick.y)
      && acts[2] == (if state.L1 then Press(LeftShoulder) else Release(LeftShoulder))
      && acts[3] == (if state.R1 then Press(RightShoulder) else Release(RightShoulder))
      && acts[..6] == ScalarActions(state)
      && acts[|acts| - 1] == Commit
      && |acts| == 7 + |faceActs| + |dpadActs|
  {
    var scalar := ScalarActions(state);
    var acts := scalar + faceActs + dpadActs + [Commit];
    PerformAllAppend(g, scalar, faceActs);
    PerformAllAppend(g, scalar + faceActs, dpadActs);
    assert acts[..|acts| - 1] == scalar + faceActs + dpadActs;
  }

  /** After the scalar calls come the face group's calls and then the D-pad group's, up to the report. */
  lemma GroupSegments(state: StateView, faceActs: seq<Action>, dpadActs: seq<Action>,
                      faceGroup: set<Button>, dpadGroup: set<Button>)
    requires GroupCalls(faceActs, faceGroup) && GroupCalls(dpadActs, dpadGroup)
    ensures var acts := ScalarActions(state) + faceActs + dpadActs + [Commit];
      exists j ::
        && 6 <= j <= |acts| - 1
        && GroupCalls(acts[6..j], faceGroup)
        && GroupCalls(acts[j..|acts| - 1], dpadGroup)
  {
    var acts := ScalarActions(state) + faceActs + dpadActs + [Commit];
    assert acts[6..6 + |faceActs|] == faceActs;
    assert acts[6 + |faceActs|..|acts| - 1] == dpadActs;
  }

  /** Presses and releases sort into the groups they came from. */
  lemma CallsByGroup(state: StateView, faceActs: seq<Action>, dpadActs: seq<Action>,
                     faceGroup: set<Button>, dpadGroup: set<Button>)
    requires PressedButtons(faceActs) <= faceGroup && ReleasedButtons(faceActs) <= faceGroup
    requires PressedButtons(dpadActs) <= dpadGroup && ReleasedButtons(dpadActs) <= dpadGroup
    requires faceGroup !! dpadGroup && Shoulders !! faceGroup && Shoulders !! dpadGroup
    ensures var acts := ScalarActions(state) + faceActs + dpadActs + [Commit];
      && PressedButtons(acts) * faceGroup == PressedButtons(faceActs) && ReleasedButtons(acts) * faceGroup == ReleasedButtons(faceActs)
      && PressedButtons(acts) * dpadGroup == PressedButtons(dpadActs) && ReleasedButtons(acts) * dpadGroup == ReleasedButtons(dpadActs)
  {
    var scalar := ScalarActions(state);
    PressedReleasedConcat(scalar, faceActs);
    PressedReleasedConcat(scalar + faceActs, dpadActs);
    PressedReleasedConcat(scalar + faceActs + dpadActs, [Commit]);
    ScalarButtons(state);
    SplitByGroup(PressedButtons(scalar), PressedButtons(faceActs), PressedButtons(dpadActs), faceGroup, dpadGroup);
    SplitByGroup(ReleasedButtons(scalar), ReleasedButtons(faceActs), ReleasedButtons(dpadActs), faceGroup, dpadGroup);
  }

  /** After both diffs, the shoulders are as the scalar calls left them and each group
      tracks the keys just received. */
  lemma HeldByGroup(vc: VirtualController, g0: Gamepad, g1: Gamepad, g2: Gamepad,
                    currentFace: set<string>, currentDPad: set<string>)
    requires KeyMapsSound(vc)
    requires g0.held - Shoulders == vc.gamepad.held - Shoulders
    requires g1.held == (g0.held + Image(vc.faceButtonMap, currentFace - vc.pressedFaceButtons))
                        - Image(vc.faceButtonMap, vc.pressedFaceButtons - currentFace)
    requires g2.held == (g1.held + Image(vc.dPadButtonMap, currentDPad - vc.pressedDPadButtons))
                        - Image(vc.dPadButtonMap, vc.pressedDPadButtons - currentDPad)
    requires g0.held * vc.faceButtonMap.Values == Image(vc.faceButtonMap, vc.pressedFaceButtons)
      ==> g1.held * vc.faceButtonMap.Values == Image(vc.faceButtonMap, currentFace)
    requires g1.held * vc.dPadButtonMap.Values == Image(vc.dPadButtonMap, vc.pressedDPadButtons)
      ==> g2.held * vc.dPadButtonMap.Values == Image(vc.dPadButtonMap, currentDPad)
    ensures g2.held * Shoulders == g0.held * Shoulders
    ensures Tracks(vc) ==> Tracks(vc.(gamepad := g2, pressedFaceButtons := currentFace, pressedDPadButtons := currentDPad))
  {
    var face, dpad := vc.faceButtonMap, vc.dPadButtonMap;
    ImageWithin(face, currentFace - vc.pressedFaceButtons);
    ImageWithin(face, vc.pressedFaceButtons - currentFace);
    ImageWithin(dpad, currentDPad - vc.pressedDPadButtons);
    ImageWithin(dpad, vc.pressedDPadButtons - currentDPad);
    GroupUntouched(g0.held, Image(face, currentFace - vc.pressedFaceButtons),
      Image(face, vc.pressedFaceButtons - currentFace), face.Values, dpad.Values);
    GroupUntouched(g0.held, Image(face, currentFace - vc.pressedFaceButtons),
      Image(face, vc.pressedFaceButtons - currentFace), face.Values, Shoulders);
    GroupUntouched(g1.held, Image(dpad, currentDPad - vc.pressedDPadButtons),
      Image(dpad, vc.pressedDPadButtons - currentDPad), dpad.Values, face.Values);
    GroupUntouched(g1.held, Image(dpad, currentDPad - vc.pressedDPadButtons),
      Image(dpad, vc.pressedDPadButtons - currentDPad), dpad.Values, Shoulders);
    OutsideShoulders(g0.held, vc.gamepad.held, face.Values);
    OutsideShoulders(g0.held, vc.gamepad.held, dpad.Values);
  }

  /** Sets that agree outside the shoulders agree on any group apart from them. */
  lemma OutsideShoulders(a: set<Button>, b: set<Button>, group: set<Button>)
    requires a - Shoulders == b - Shoulders && Shoulders !! group
    ensures a * group == b * group
  {
    forall x | x in group
      ensures x in a <==> x in b
    {
      assert x !in Shoulders;
      assert (x in a) == (x in a - Shoulders);
      assert (x in b) == (x in b - Shoulders);
    }
  }

  /** One snapshot of a browser user delivered to a receiver whose memory tracks its gamepad:
      the gamepad then holds exactly the buttons of the user's held keys, the shoulders and
      triggers follow the user's flags, and the sticks are the user's positions. */
  method Deliver(vc: VirtualController, u: User) returns (vc': VirtualController, acts: seq<Action>)
    requires KeyMapsSound(vc) && Tracks(vc)
    ensures KeyMapsSound(vc') && Tracks(vc')
    ensures vc'.gamepad.held * vc.faceButtonMap.Values == Image(vc.faceButtonMap, SetOf(u.faceButtons))
    ensures vc'.gamepad.held * vc.dPadButtonMap.Values == Image(vc.dPadButtonMap, SetOf(u.dPadButtons))
    ensures (LeftShoulder in vc'.gamepad.held <==> u.lShoulder) && (RightShoulder in vc'.gamepad.held <==> u.rShoulder)
    ensures (vc'.gamepad.leftTrigger == 255 <==> u.lTrigger) && (vc'.gamepad.rightTrigger == 255 <==> u.rTrigger)
    ensures vc'.gamepad.leftStick == u.leftPos && vc'.gamepad.rightStick == u.rightPos
    ensures |acts| >= 7 && acts[|acts| - 1] == Commit
  {
    vc', acts := UpdateState(vc, GetStateForServer(u));
  }
}

=== FILE: touch.dfy ===
/**
 * Touch dispatch on the phone: the `activeTouches` table that remembers, per
 * touch identifier, which stick or button the touch started on, and the button
 * helpers the handlers call. The stick geometry (centre, radius, normalisation)
 * is not modelled: a touch point carries the normalised position it computes.
 */
module TouchControls {
  import opened InsertionSet
  import opened XboxController

  /** What a touchstart recorded for its identifier. */
  datatype TouchInfo =
    | StickTouch(stick: string)
    | ButtonTouch(typeName: string, key: string)

  /** The user and the table of touches in progress. */
  datatype Surface = Surface(user: User, activeTouches: map<int, TouchInfo>)

  /** One touch of an event: its identifier and the normalised stick position
      the drag geometry derives from its screen coordinates. */
  datatype TouchPoint = TouchPoint(identifier: int, normX: real, normY: real)

  // ---------------------------------------------------------------------------
  // Button helpers

  /** Whether the digital flag a name selects is set; an unknown name selects none. */
  function DigitalHeld(u: User, name: string): bool {
    match name
    case "L1" => u.lShoulder
    case "R1" => u.rShoulder
    case "L2" => u.lTrigger
    case "R2" => u.rTrigger
    case _ => false
  }

  /** What a release of `key` under `typeName` leaves behind: that key, or that flag, is not held. */
  predicate Released(u: User, typeName: string, key: string) {
    && (typeName == "face" ==> key !in u.faceButtons)
    && (typeName == "dpad" ==> key !in u.dPadButtons)
    && (typeName == "digital" ==> !DigitalHeld(u, key))
  }

  /** `r` holds nothing that `u` did not hold: no key of either group, no flag. */
  predicate HoldsNoMore(r: User, u: User) {
    && (forall k :: k in r.faceButtons ==> k in u.faceButtons)
    && (forall k :: k in r.dPadButtons ==> k in u.dPadButtons)
    && (r.lShoulder ==> u.lShoulder) && (r.rShoulder ==> u.rShoulder)
    && (r.lTrigger ==> u.lTrigger) && (r.rTrigger ==> u.rTrigger)
  }

  /** `handlePress`: routes a press to the group the button's type names. */
  function HandlePress(u: User, typeName: string, key: string): (r: User)
    ensures typeName == "dpad" ==> r.(dPadButtons := u.dPadButtons) == u
    ensures typeName == "dpad" ==> forall k :: k in r.dPadButtons <==> k == key || k in u.dPadButtons
    ensures typeName == "face" ==> r.(faceButtons := u.faceButtons) == u
    ensures typeName == "face" ==> forall k :: k in r.faceButtons <==> k == key || k in u.faceButtons
    ensures typeName == "digital" ==> r == UpdateDigitalButtons(u, key, true)
    ensures typeName !in {"dpad", "face", "digital"} ==> r == u
    ensures Valid(u) ==> Valid(r)
  {
    match typeName
    case "dpad" => UpdateDPadButtons(u, key, "pressed")
    case "face" => UpdateFaceButtons(u, key, "pressed")
    case "digital" => UpdateDigitalButtons(u, key, true)
    case _ => u
  }

  /** `handleRelease`: routes a release to the group the button's type names. */
  function HandleRelease(u: User, typeName: string, key: string): (r: User)
    ensures typeName == "dpad" ==> r.(dPadButtons := u.dPadButtons) == u
    ensures typeName == "dpad" ==> forall k :: k in r.dPadButtons <==> k != key && k in u.dPadButtons
    ensures typeName == "face" ==> r.(faceButtons := u.faceButtons) == u
    ensures typeName == "face" ==> forall k :: k in r.faceButtons <==> k != key && k in u.faceButtons
    ensures typeName == "digital" ==> r == UpdateDigitalButtons(u, key, false)
    ensures typeName !in {"dpad", "face", "digital"} ==> r == u
    ensures Released(r, typeName, key) && HoldsNoMore(r, u)
    ensures r.leftPos == u.leftPos && r.rightPos == u.rightPos
    ensures Valid(u) ==> Valid(r)
  {
    match typeName
    case "dpad" => UpdateDPadButtons(u, key, "released")
    case "face" => UpdateFaceButtons(u, key, "released")
    case "digital" => UpdateDigitalButtons(u, key, false)
    case _ => u
  }

  /** `resetStick`: writes 0 to both axes of the named stick. */
  function ResetStick(u: User, stick: string): (r: User)
    ensures StickOf(r, stick) == Centre
    ensures stick == "left" ==> r.rightPos == u.rightPos
    ensures stick != "left" ==> r.leftPos == u.leftPos
    ensures r.(leftPos := u.leftPos, rightPos := u.rightPos) == u
    ensures Valid(u) ==> Valid(r)
  {
    UpdatePosY(UpdatePosX(u, stick, 0.0), stick, 0.0)
  }

  /** `startDrag`/`updateStick` after the geometry: both axes of the stick, clamped. */
  function DragStick(u: User, stick: string, p: TouchPoint): (r: User)
    ensures StickOf(r, stick) == Stick(Clamp(p.normX), Clamp(p.normY))
    ensures StickInRange(StickOf(r, stick))
    ensures InRange(p.normX) && InRange(p.normY) ==> StickOf(r, stick) == Stick(p.normX, p.normY)
    ensures stick == "left" ==> r.rightPos == u.rightPos
    ensures stick != "left" ==> r.leftPos == u.leftPos
    ensures r.(leftPos := u.leftPos, rightPos := u.rightPos) == u
    ensures Valid(u) ==> Valid(r)
  {
    UpdatePosY(UpdatePosX(u, stick, p.normX), stick, p.normY)
  }

  // ---------------------------------------------------------------------------
  // One touch at a time

  /** A button's touchstart: record the button and press it. */
  function ButtonTouchStart(s: Surface, id: int, typeName: string, key: string): (r: Surface)
    ensures r.activeTouches == s.activeTouches[id := ButtonTouch(typeName, key)]
    ensures r.user == HandlePress(s.user, typeName, key)
  {
    Surface(HandlePress(s.user, typeName, key), s.activeTouches[id := ButtonTouch(typeName, key)])
  }

  /** A stick cap's touchstart: record the stick and start dragging it. */
  function StickTouchStart(s: Surface, p: TouchPoint, stick: string): (r: Surface)
    ensures r.activeTouches == s.activeTouches[p.identifier := StickTouch(stick)]
    ensures r.user == DragStick(s.user, stick, p)
  {
    Surface(DragStick(s.user, stick, p), s.activeTouches[p.identifier := StickTouch(stick)])
  }

  /** The table records `id` as a touch that started on a stick. */
  predicate IsStickTouch(s: Surface, id: int) {
    id in s.activeTouches && s.activeTouches[id].StickTouch?
  }

  /** The document's touchmove, for one touch: only a stick touch moves its stick. */
  function TouchMove(s: Surface, p: TouchPoint): (r: Surface)
    ensures r.activeTouches == s.activeTouches
    ensures p.identifier in s.activeTouches && s.activeTouches[p.identifier].StickTouch? ==>
      r.user == DragStick(s.user, s.activeTouches[p.identifier].stick, p)
    ensures !(p.identifier in s.activeTouches && s.activeTouches[p.identifier].StickTouch?) ==> r == s
  {
    if p.identifier in s.activeTouches && s.activeTouches[p.identifier].StickTouch? then
      s.(user := DragStick(s.user, s.activeTouches[p.identifier].stick, p))
    else s
  }

  /** A button's touchend, for one touch: releases what that touch pressed and forgets it.
      Any other touch is left to the document's handler. */
  function ButtonTouchEnd(s: Surface, id: int): (r: Surface)
    ensures id in s.activeTouches && s.activeTouches[id].ButtonTouch? ==>
      && r.activeTouches == s.activeTouches - {id}
      && r.user == HandleRelease(s.user, s.activeTouches[id].typeName, s.activeTouches[id].key)
    ensures !(id in s.activeTouches && s.activeTouches[id].ButtonTouch?) ==> r == s
    ensures HoldsNoMore(r.user, s.user)
    ensures forall k :: k in s.user.faceButtons && !Lifted(s, [id], ButtonTouch("face", k)) ==> k in r.user.faceButtons
    ensures forall k :: k in s.user.dPadButtons && !Lifted(s, [id], ButtonTouch("dpad", k)) ==> k in r.user.dPadButtons
    ensures forall name :: DigitalHeld(s.user, name) && !Lifted(s, [id], ButtonTouch("digital", name)) ==>
      DigitalHeld(r.user, name)
    ensures r.user.leftPos == s.user.leftPos && r.user.rightPos == s.user.rightPos
    ensures Valid(s.user) ==> Valid(r.user)
  {
    if id in s.activeTouches && s.activeTouches[id].ButtonTouch? then
      var info := s.activeTouches[id];
      Surface(HandleRelease(s.user, info.typeName, info.key), s.activeTouches - {id})
    else s
  }

  /** The document's touchend, for one touch: only a stick touch is handled; it
      recentres its stick and is forgotten. */
  function DocumentTouchEnd(s: Surface, id: int): (r: Surface)
    ensures id in s.activeTouches && s.activeTouches[id].StickTouch? ==>
      && r.activeTouches == s.activeTouches - {id}
      && StickOf(r.user, s.activeTouches[id].stick) == Centre
      && r.user == ResetStick(s.user, s.activeTouches[id].stick)
    ensures !(id in s.activeTouches && s.activeTouches[id].StickTouch?) ==> r == s
    ensures Valid(s.user) ==> Valid(r.user)
  {
    if id in s.activeTouches && s.activeTouches[id].StickTouch? then
      var info := s.activeTouches[id];
      Surface(ResetStick(s.user, info.stick), s.activeTouches - {id})
    else s
  }

  /** A touch lifting: the target button's handler runs, then the event bubbles to the document. */
  function TouchEnd(s: Surface, id: int): (r: Surface)
    ensures r.activeTouches == s.activeTouches - {id}
    ensures id !in s.activeTouches ==> r == s
    ensures Valid(s.user) ==> Valid(r.user)
  {
    DocumentTouchEnd(ButtonTouchEnd(s, id), id)
  }

  /** A face or D-pad touch that starts and ends on a key that was not held, or a digital
      touch on a flag that was clear, leaves the surface as it was; so does any touch on a
      button of an unknown type. */
  lemma ButtonTouchRoundTrip(s: Surface, id: int, typeName: string, key: string)
    requires id !in s.activeTouches
    requires typeName == "face" ==> key !in s.user.faceButtons
    requires typeName == "dpad" ==> key !in s.user.dPadButtons
    requires typeName == "digital" ==> !DigitalHeld(s.user, key)
    ensures TouchEnd(ButtonTouchStart(s, id, typeName, key), id) == s
  {
    var started := ButtonTouchStart(s, id, typeName, key);
    assert started.activeTouches - {id} == s.activeTouches;
    if typeName != "digital" {
      PressThenReleaseRestores(s.user, key, "released");
    }
  }

  /** A digital button touched and lifted ends released, whatever it was before. */
  lemma DigitalTouchEndsReleased(s: Surface, id: int, key: string)
    requires id !in s.activeTouches
    ensures var r := TouchEnd(ButtonTouchStart(s, id, "digital", key), id);
      && r.activeTouches == s.activeTouches
      && r.user == UpdateDigitalButtons(s.user, key, false)
  {
    var started := ButtonTouchStart(s, id, "digital", key);
    assert started.activeTouches - {id} == s.activeTouches;
  }

  /** No recorded touch drives the stick that `left` selects. */
  predicate NoStickTouchOn(s: Surface, left: bool) {
    forall id :: id in s.activeTouches && s.activeTouches[id].StickTouch? ==>
      (s.activeTouches[id].stick == "left") != left
  }

  /** A stick touch, however it moved, ends with its stick at exactly (0,0) and its
      identifier forgotten; the buttons are untouched, and so is the other stick
      while no touch of its own is in progress. */
  lemma StickTouchRecentres(s: Surface, p: TouchPoint, moves: seq<TouchPoint>, stick: string)
    requires p.identifier !in s.activeTouches
    ensures var r := TouchEnd(MoveAll(StickTouchStart(s, p, stick), moves), p.identifier);
      && r.activeTouches == s.activeTouches
      && StickOf(r.user, stick) == Centre
      && r.user.(leftPos := s.user.leftPos, rightPos := s.user.rightPos) == s.user
      && (NoStickTouchOn(s, stick != "left") ==>
            StickOf(r.user, if stick == "left" then "right" else "left")
            == StickOf(s.user, if stick == "left" then "right" else "left"))
  {
    var started := StickTouchStart(s, p, stick);
    MoveAllKeepsTable(started, moves);
    var moved := MoveAll(started, moves);
    assert moved.activeTouches[p.identifier] == StickTouch(stick);
    assert moved.activeTouches - {p.identifier} == s.activeTouches;
    if NoStickTouchOn(s, stick != "left") {
      MoveAllOnlyMovesStartedSticks(started, moves, stick != "left");
    }
  }

  /** Lifting one of two fingers that hold the same face key releases the key although
      the other finger is still down: releases are not counted per touch. */
  lemma SecondFingerDoesNotHoldKey(s: Surface, id1: int, id2: int, key: string)
    requires id1 != id2
    ensures var r := TouchEnd(ButtonTouchStart(ButtonTouchStart(s, id1, "face", key), id2, "face", key), id1);
      && id2 in r.activeTouches && r.activeTouches[id2] == ButtonTouch("face", key)
      && key !in r.user.faceButtons
  {
  }

  // ---------------------------------------------------------------------------
  // Whole events: the handlers loop over the touches of the event

  /** The document's touchmove over all touches of the event. */
  function MoveAll(s: Surface, touches: seq<TouchPoint>): (r: Surface)
    ensures Valid(s.user) ==> Valid(r.user)
    ensures (forall i :: 0 <= i < |touches| ==> !IsStickTouch(s, touches[i].identifier)) ==> r == s
    decreases |touches|
  {
    if |touches| == 0 then s
    else MoveAll(TouchMove(s, touches[0]), touches[1..])
  }

  lemma {:induction false} MoveAllKeepsTable(s: Surface, touches: seq<TouchPoint>)
    ensures MoveAll(s, touches).activeTouches == s.activeTouches
    ensures MoveAll(s, touches).user.(leftPos := s.user.leftPos, rightPos := s.user.rightPos) == s.user
    decreases |touches|
  {
    if |touches| > 0 {
      MoveAllKeepsTable(TouchMove(s, touches[0]), touches[1..]);
    }
  }

  /** Moves reach a stick only through a touch that started on it: with no touch
      recorded for the stick `left` selects, that stick does not move. */
  lemma {:induction false} MoveAllOnlyMovesStartedSticks(s: Surface, touches: seq<TouchPoint>, left: bool)
    requires NoStickTouchOn(s, left)
    ensures StickOf(MoveAll(s, touches).user, if left then "left" else "right")
         == StickOf(s.user, if left then "left" else "right")
    decreases |touches|
  {
    if |touches| > 0 {
      MoveAllKeepsTable(TouchMove(s, touches[0]), touches[1..]);
      MoveAllOnlyMovesStartedSticks(TouchMove(s, touches[0]), touches[1..], left);
    }
  }

  /** Some touch among `ids` is recorded with exactly `info`. */
  predicate Lifted(s: Surface, ids: seq<int>, info: TouchInfo) {
    exists id :: id in ids && id in s.activeTouches && s.activeTouches[id] == info
  }

  /** Some touch among `ids` is recorded as a stick touch on the stick `left` selects. */
  predicate StickLifted(s: Surface, ids: seq<int>, left: bool) {
    exists id :: id in ids && IsStickTouch(s, id) && (s.activeTouches[id].stick == "left") == left
  }

  /** The document's touchend over all changed touches: every stick touch among them is
      forgotten and its stick recentred, every other entry is kept, a stick no listed touch
      drives keeps its position, and nothing but the sticks changes. */
  function DocumentTouchEndAll(s: Surface, ids: seq<int>): (r: Surface)
    ensures forall id :: id in r.activeTouches ==> id in s.activeTouches && r.activeTouches[id] == s.activeTouches[id]
    ensures forall id :: id in s.activeTouches && !(id in ids && s.activeTouches[id].StickTouch?) ==> id in r.activeTouches
    ensures forall id :: id in ids && id in s.activeTouches && s.activeTouches[id].StickTouch? ==> id !in r.activeTouches
    ensures forall id :: id in ids && id in s.activeTouches && s.activeTouches[id].StickTouch? ==>
      StickOf(r.user, s.activeTouches[id].stick) == Centre
    ensures s.user.leftPos == Centre ==> r.user.leftPos == Centre
    ensures s.user.rightPos == Centre ==> r.user.rightPos == Centre
    ensures !StickLifted(s, ids, true) ==> r.user.leftPos == s.user.leftPos
    ensures !StickLifted(s, ids, false) ==> r.user.rightPos == s.user.rightPos
    ensures r.user.(leftPos := s.user.leftPos, rightPos := s.user.rightPos) == s.user
    ensures Valid(s.user) ==> Valid(r.user)
    decreases |ids|
  {
    if |ids| == 0 then s
    else
      var next := DocumentTouchEnd(s, ids[0]);
      StickLiftedLater(s, next, ids);
      DocumentTouchEndAll(next, ids[1..])
  }

  /** A stick touch recorded in a table that only lost entries of `s` was recorded the same
      way in `s`; the first listed touch counts as listed. */
  lemma StickLiftedLater(s: Surface, next: Surface, ids: seq<int>)
    requires |ids| > 0
    requires forall id :: id in next.activeTouches ==> id in s.activeTouches && next.activeTouches[id] == s.activeTouches[id]
    ensures forall left :: StickLifted(next, ids[1..], left) ==> StickLifted(s, ids, left)
    ensures IsStickTouch(s, ids[0]) ==> StickLifted(s, ids, s.activeTouches[ids[0]].stick == "left")
  {
  }

  /** A button's touchend over all changed touches: every button touch among them is
      forgotten and what it pressed is released, every other entry is kept, nothing
      becomes held, a key or flag no listed touch recorded stays held, and the sticks are
      not touched. */
  function ButtonTouchEndAll(s: Surface, ids: seq<int>): (r: Surface)
    ensures forall id :: id in r.activeTouches ==> id in s.activeTouches && r.activeTouches[id] == s.activeTouches[id]
    ensures forall id :: id in s.activeTouches && !(id in ids && s.activeTouches[id].ButtonTouch?) ==> id in r.activeTouches
    ensures forall id :: id in ids && id in s.activeTouches && s.activeTouches[id].ButtonTouch? ==> id !in r.activeTouches
    ensures forall id :: id in ids && id in s.activeTouches && s.activeTouches[id].ButtonTouch? ==>
      Released(r.user, s.activeTouches[id].typeName, s.activeTouches[id].key)
    ensures HoldsNoMore(r.user, s.user)
    ensures forall k :: k in s.user.faceButtons && !Lifted(s, ids, ButtonTouch("face", k)) ==> k in r.user.faceButtons
    ensures forall k :: k in s.user.dPadButtons && !Lifted(s, ids, ButtonTouch("dpad", k)) ==> k in r.user.dPadButtons
    ensures forall name :: DigitalHeld(s.user, name) && !Lifted(s, ids, ButtonTouch("digital", name)) ==>
      DigitalHeld(r.user, name)
    ensures r.user.leftPos == s.user.leftPos && r.user.rightPos == s.user.rightPos
    ensures Valid(s.user) ==> Valid(r.user)
    decreases |ids|
  {
    if |ids| == 0 then s
    else
      var next := ButtonTouchEnd(s, ids[0]);
      LiftedLater(s, next, ids);
      ButtonTouchEndAll(next, ids[1..])
  }

  /** A touch recorded in a table that only lost entries of `s` was recorded the same way in `s`. */
  lemma LiftedLater(s: Surface, next: Surface, ids: seq<int>)
    requires |ids| > 0
    requires forall id :: id in next.activeTouches ==> id in s.activeTouches && next.activeTouches[id] == s.activeTouches[id]
    ensures forall info :: Lifted(next, ids[1..], info) ==> Lifted(s, ids, info)
    ensures forall info :: Lifted(s, [ids[0]], info) ==> Lifted(s, ids, info)
  {
  }

  /** A button's touchstart over all changed touches: each is recorded against the
      button, and the button ends pressed. */
  function ButtonTouchStartAll(s: Surface, ids: seq<int>, typeName: string, key: string): (r: Surface)
    ensures forall id :: id in ids ==> id in r.activeTouches && r.activeTouches[id] == ButtonTouch(typeName, key)
    ensures forall id :: id !in ids ==> (id in r.activeTouches <==> id in s.activeTouches)
    ensures forall id :: id !in ids && id in s.activeTouches ==> r.activeTouches[id] == s.activeTouches[id]
    ensures |ids| > 0 ==> r.user == HandlePress(s.user, typeName, key)
    ensures |ids| == 0 ==> r == s
    ensures Valid(s.user) ==> Valid(r.user)
    decreases |ids|
  {
    if |ids| == 0 then s
    else
      var next := ButtonTouchStart(s, ids[0], typeName, key);
      HandlePressIdempotent(s.user, typeName, key);
      ButtonTouchStartAll(next, ids[1..], typeName, key)
  }

  /** Pressing the same button twice is the same as pressing it once. */
  lemma HandlePressIdempotent(u: User, typeName: string, key: string)
    ensures HandlePress(HandlePress(u, typeName, key), typeName, key) == HandlePress(u, typeName, key)
  {
  }
}

=== FILE: user.dfy ===
/**
 * The phone-side `User` record: the canonical input state of one player,
 * mutated by touch handlers and read by the send loop.
 */
module XboxController {
  import opened InsertionSet

  /** A stick position; components are the normalised axes, "up" positive. */
  datatype Stick = Stick(x: real, y: real)

  const Centre: Stick := Stick(0.0, 0.0)

  datatype User = User(
    playerID: int,
    leftPos: Stick,
    rightPos: Stick,
    lShoulder: bool,
    rShoulder: bool,
    lTrigger: bool,
    rTrigger: bool,
    faceButtons: seq<string>,
    dPadButtons: seq<string>)

  /** The message `getStateForServer` builds; button arrays come from `Array.from`. */
  datatype StateView = StateView(
    playerID: int,
    leftStick: Stick,
    rightStick: Stick,
    L1: bool,
    R1: bool,
    L2: bool,
    R2: bool,
    faceButtons: seq<string>,
    DPadButtons: seq<string>)

  predicate InRange(v: real) {
    -1.0 <= v <= 1.0
  }

  predicate StickInRange(s: Stick) {
    InRange(s.x) && InRange(s.y)
  }

  /** What every reachable user satisfies: sticks within the unit square, button sets duplicate-free. */
  predicate Valid(u: User) {
    && StickInRange(u.leftPos)
    && StickInRange(u.rightPos)
    && NoDup(u.faceButtons)
    && NoDup(u.dPadButtons)
  }

  function Min(a: real, b: real): real {
    if a <= b then a else b
  }

  function Max(a: real, b: real): real {
    if a >= b then a else b
  }

  /** `Math.max(-1, Math.min(1, v))`. */
  function Clamp(v: real): (r: real)
    ensures InRange(r)
    ensures InRange(v) ==> r == v
    ensures v > 1.0 ==> r == 1.0
    ensures v < -1.0 ==> r == -1.0
  {
    Max(-1.0, Min(1.0, v))
  }

  // ---------------------------------------------------------------------------
  // Construction and player numbering

  /** The state every field initialiser gives a new user. */
  function Fresh(playerID: int): (u: User)
    ensures Valid(u) && u.playerID == playerID
    ensures u.leftPos == Centre && u.rightPos == Centre
    ensures |u.faceButtons| == 0 && |u.dPadButtons| == 0
    ensures !u.lShoulder && !u.rShoulder && !u.lTrigger && !u.rTrigger
  {
    User(playerID, Centre, Centre, false, false, false, false, [], [])
  }

  /** The constructor: bumps the class-wide player counter and takes its new value
      as the player's number. Returns the new counter and the user. */
  function NewUser(numberOfPlayers: int): (r: (int, User))
    ensures r.0 == numberOfPlayers + 1
    ensures r.1 == Fresh(r.0)
  {
    var count := numberOfPlayers + 1;
    (count, Fresh(count))
  }

  /** Constructs `k` users in a row, returning the final counter and the users in creation order. */
  function CreateUsers(numberOfPlayers: int, k: nat): (r: (int, seq<User>))
    ensures |r.1| == k
    decreases k
  {
    if k == 0 then (numberOfPlayers, [])
    else
      var (count, u) := NewUser(numberOfPlayers);
      var (last, rest) := CreateUsers(count, k - 1);
      (last, [u] + rest)
  }

  /** Player numbers continue the counter: the i-th user (from 0) gets counter + i + 1,
      so numbers strictly increase in creation order and the counter ends at the last one. */
  lemma {:induction false} CreateUsersNumbering(numberOfPlayers: int, k: nat)
    ensures CreateUsers(numberOfPlayers, k).0 == numberOfPlayers + k
    ensures forall i :: 0 <= i < k ==>
      CreateUsers(numberOfPlayers, k).1[i] == Fresh(numberOfPlayers + i + 1)
    ensures forall i, j :: 0 <= i < j < k ==>
      CreateUsers(numberOfPlayers, k).1[i].playerID < CreateUsers(numberOfPlayers, k).1[j].playerID
    decreases k
  {
    if k > 0 {
      CreateUsersNumbering(numberOfPlayers + 1, k - 1);
      var users := CreateUsers(numberOfPlayers, k).1;
      var rest := CreateUsers(numberOfPlayers + 1, k - 1).1;
      assert users == [Fresh(numberOfPlayers + 1)] + rest;
      forall i | 0 <= i < k
        ensures users[i] == Fresh(numberOfPlayers + i + 1)
      {
        if i > 0 {
          assert users[i] == rest[i - 1];
        }
      }
    }
  }

  /** Two users created on a fresh page are players 1 and 2. */
  lemma FirstTwoPlayers()
    ensures CreateUsers(0, 2).1[0].playerID == 1
    ensures CreateUsers(0, 2).1[1].playerID == 2
  {
    CreateUsersNumbering(0, 2);
  }

  // ---------------------------------------------------------------------------
  // Mutators

  /** `updatePosX`: "left" writes the left stick, any other name the right one. */
  function UpdatePosX(u: User, stick: string, x: real): (r: User)
    ensures stick == "left" ==> r.leftPos == Stick(Clamp(x), u.leftPos.y) && r.rightPos == u.rightPos
    ensures stick != "left" ==> r.rightPos == Stick(Clamp(x), u.rightPos.y) && r.leftPos == u.leftPos
    ensures r.(leftPos := u.leftPos, rightPos := u.rightPos) == u
    ensures Valid(u) ==> Valid(r)
  {
    if stick == "left" then u.(leftPos := u.leftPos.(x := Clamp(x)))
    else u.(rightPos := u.rightPos.(x := Clamp(x)))
  }

  /** `updatePosY`: as `updatePosX`, for the vertical component. */
  function UpdatePosY(u: User, stick: string, y: real): (r: User)
    ensures stick == "left" ==> r.leftPos == Stick(u.leftPos.x, Clamp(y)) && r.rightPos == u.rightPos
    ensures stick != "left" ==> r.rightPos == Stick(u.rightPos.x, Clamp(y)) && r.leftPos == u.leftPos
    ensures r.(leftPos := u.leftPos, rightPos := u.rightPos) == u
    ensures Valid(u) ==> Valid(r)
  {
    if stick == "left" then u.(leftPos := u.leftPos.(y := Clamp(y)))
    else u.(rightPos := u.rightPos.(y := Clamp(y)))
  }

  /** The stick a stick name selects. */
  function StickOf(u: User, stick: string): Stick {
    if stick == "left" then u.leftPos else u.rightPos
  }

  /** Writing both axes stores each clamped component, exactly the input when it is in range. */
  lemma SetStickStoresClamped(u: User, stick: string, x: real, y: real)
    ensures var r := UpdatePosY(UpdatePosX(u, stick, x), stick, y);
      && StickOf(r, stick) == Stick(Clamp(x), Clamp(y))
      && StickInRange(StickOf(r, stick))
      && (InRange(x) && InRange(y) ==> StickOf(r, stick) == Stick(x, y))
      && StickOf(r, if stick == "left" then "right" else "left")
         == StickOf(u, if stick == "left" then "right" else "left")
  {
  }

  /** The single set operation behind both button mutators. */
  function UpdateGroup(s: seq<string>, key: string, action: string): (r: seq<string>)
    ensures forall k :: k in r <==> if k == key then action == "pressed" else k in s
    ensures NoDup(s) ==> NoDup(r)
  {
    if action == "pressed" then Add(s, key) else Delete(s, key)
  }

  /** `updateFaceButtons`: "pressed" adds the key, any other action removes it. */
  function UpdateFaceButtons(u: User, key: string, action: string): (r: User)
    ensures forall k :: k in r.faceButtons <==> if k == key then action == "pressed" else k in u.faceButtons
    ensures r.(faceButtons := u.faceButtons) == u
    ensures Valid(u) ==> Valid(r)
  {
    u.(faceButtons := UpdateGroup(u.faceButtons, key, action))
  }

  /** `updateDPadButtons`: as `updateFaceButtons`, on the D-pad group. */
  function UpdateDPadButtons(u: User, key: string, action: string): (r: User)
    ensures forall k :: k in r.dPadButtons <==> if k == key then action == "pressed" else k in u.dPadButtons
    ensures r.(dPadButtons := u.dPadButtons) == u
    ensures Valid(u) ==> Valid(r)
  {
    u.(dPadButtons := UpdateGroup(u.dPadButtons, key, action))
  }

  /** Releasing a key that is not held is a no-op, in either group. */
  lemma ReleaseAbsentIsNoOp(u: User, key: string, action: string)
    requires action != "pressed"
    ensures key !in u.faceButtons ==> UpdateFaceButtons(u, key, action) == u
    ensures key !in u.dPadButtons ==> UpdateDPadButtons(u, key, action) == u
  {
    if key !in u.faceButtons {
      DeleteAbsent(u.faceButtons, key);
    }
    if key !in u.dPadButtons {
      DeleteAbsent(u.dPadButtons, key);
    }
  }

  /** Pressing a key that was not held and then releasing it restores the user exactly,
      insertion order of the other keys included. */
  lemma PressThenReleaseRestores(u: User, key: string, action: string)
    requires action != "pressed"
    ensures key !in u.faceButtons ==>
      UpdateFaceButtons(UpdateFaceButtons(u, key, "pressed"), key, action) == u
    ensures key !in u.dPadButtons ==>
      UpdateDPadButtons(UpdateDPadButtons(u, key, "pressed"), key, action) == u
  {
    if key !in u.faceButtons {
      AddThenDelete(u.faceButtons, key);
    }
    if key !in u.dPadButtons {
      AddThenDelete(u.dPadButtons, key);
    }
  }

  /** `updateDigitalButtons`: L1/R1 are the shoulders, L2/R2 the triggers;
      any other name leaves the user as it was. */
  function UpdateDigitalButtons(u: User, buttonName: string, state: bool): (r: User)
    ensures buttonName == "L1" ==> r == u.(lShoulder := state)
    ensures buttonName == "R1" ==> r == u.(rShoulder := state)
    ensures buttonName == "L2" ==> r == u.(lTrigger := state)
    ensures buttonName == "R2" ==> r == u.(rTrigger := state)
    ensures buttonName !in {"L1", "R1", "L2", "R2"} ==> r == u
    ensures Valid(u) ==> Valid(r)
  {
    match buttonName
    case "L1" => u.(lShoulder := state)
    case "R1" => u.(rShoulder := state)
    case "L2" => u.(lTrigger := state)
    case "R2" => u.(rTrigger := state)
    case _ => u
  }

  // ---------------------------------------------------------------------------
  // Snapshot

  /** `getStateForServer`: a self-contained copy of the user's fields. */
  function GetStateForServer(u: User): (v: StateView)
    ensures v.playerID == u.playerID
    ensures v.leftStick == u.leftPos && v.rightStick == u.rightPos
    ensures v.L1 == u.lShoulder && v.R1 == u.rShoulder && v.L2 == u.lTrigger && v.R2 == u.rTrigger
    ensures v.faceButtons == u.faceButtons && v.DPadButtons == u.dPadButtons
    ensures Valid(u) ==> NoDup(v.faceButtons) && NoDup(v.DPadButtons)
    ensures Valid(u) ==> StickInRange(v.leftStick) && StickInRange(v.rightStick)
  {
    StateView(u.playerID, u.leftPos, u.rightPos,
              u.lShoulder, u.rShoulder, u.lTrigger, u.rTrigger,
              u.faceButtons, u.dPadButtons)
  }

  /** A button event as the face/D-pad mutators receive it. */
  datatype ButtonEvent = ButtonEvent(key: string, action: string)

  /** Applies face-button events in order. */
  function ReplayFace(u: User, events: seq<ButtonEvent>): User
    decreases |events|
  {
    if |events| == 0 then u
    else
      var e := events[|events| - 1];
      UpdateFaceButtons(ReplayFace(u, events[..|events| - 1]), e.key, e.action)
  }

  /** The action of the latest event for `key`, if any. */
  function LastAction(events: seq<ButtonEvent>, key: string): (a: string)
    requires exists i :: 0 <= i < |events| && events[i].key == key
    ensures exists i :: 0 <= i < |events| && events[i].key == key && events[i].action == a &&
                        (forall j :: i < j < |events| ==> events[j].key != key)
    decreases |events|
  {
    var e := events[|events| - 1];
    if e.key == key then e.action
    else
      var i :| 0 <= i < |events| && events[i].key == key;
      assert events[..|events| - 1][i] == events[i];
      var a := LastAction(events[..|events| - 1], key);
      a
  }

  /** After any sequence of face-button events, a key is in the snapshot's face
      array exactly when its latest event was "pressed" (or, with no event for it,
      when it was held before); the array lists no key twice. */
  lemma {:induction false} SnapshotFollowsLatestEvent(u: User, events: seq<ButtonEvent>, key: string)
    requires Valid(u)
    ensures Valid(ReplayFace(u, events))
    ensures var v := GetStateForServer(ReplayFace(u, events));
      && NoDup(v.faceButtons)
      && (key in v.faceButtons <==>
          if exists i :: 0 <= i < |events| && events[i].key == key
          then LastAction(events, key) == "pressed"
          else key in u.faceButtons)
    decreases |events|
  {
    if |events| > 0 {
      var prefix := events[..|events| - 1];
      var e := events[|events| - 1];
      SnapshotFollowsLatestEvent(u, prefix, key);
      if e.key != key {
        if exists i :: 0 <= i < |events| && events[i].key == key {
          var i :| 0 <= i < |events| && events[i].key == key;
          assert prefix[i] == events[i];
        } else {
          forall i | 0 <= i < |prefix|
            ensures prefix[i].key != key
          {
            assert prefix[i] == events[i];
          }
        }
      }
    }
  }

  /** Pressing "A" shows it in the next snapshot; releasing it removes it again. */
  lemma PressReleaseScenario(u: User)
    ensures "A" in GetStateForServer(UpdateFaceButtons(u, "A", "pressed")).faceButtons
    ensures "A" !in GetStateForServer(
      UpdateFaceButtons(UpdateFaceButtons(u, "A", "pressed"), "A", "released")).faceButtons
  {
  }
}

=== FILE: wrappers.dfy ===
/** The optional value used where the programs hold `null` or schedule nothing. */
module Wrappers {

  datatype Option<+T> = None | Some(value: T)
}
